=== FILE: README.md ===
# FRC robot control logic in Dafny

This project models the decision logic of a team's FRC robot code. The code
exists in three languages: the Python "astro" robot, the Python, Java and C++
drive robots, and a minimal Python robot. The model covers the sequential,
hardware-free parts, and every sensor reading, joystick axis, clock value and
dashboard entry becomes an input.

- **Climb** (`lift.dfy`, `climber.dfy`, `count_updater.dfy`):
  - the climb commands' configuration, reloaded from the dashboard;
  - lean-based power shaping (`reducePower`, `fullyExtendBothLegs`, `maintainBackLegs`);
  - the five climb steps' per-tick commands and completion predicates, and the fixed `ClimbUp` order;
  - the leg limit-switch "reached since snapshot" rule;
  - the floor sensor and its hysteresis trigger;
  - the stop operations and the every-tenth-call dashboard cadence;
  - the simulator's rising-edge counter that feeds the limit switches.
- **Drive subsystem** (`drive_subsystem.dfy`): zero-referenced angle and roll (roll is the climb's lean), distance and velocity averages, the bump predicate, and stop.
- **Tick-timed ramp** (`tick_timed.dfy`): `DriveTickTimed`'s ramp-up, cruise, ramp-down and done cycle, with a reference profile the execution is proved to follow.
- **Driver input** (`drive_human.dfy`): `DriveHuman` in its four modes, fixed-power driving, slow mode, the flip-front and brake-mode toggles, and the dashboard set-up.
- **Statistics** (`stats.dfy`): `Stats` (count, sum, extremes, mean) and the `Performance` loop-time monitor.
- **Load test** (`load_test.dfy`): the doubling/halving search of `LoadTest`.
- **Dashboard** (`dashboard.dfy`): `OI.initializeNumber` and `OI.initializeBoolean` over a store of numbers and booleans.
- **Minimal robot** (`minimal_robot.dfy`): `DrivePower` and `DriveArcade`'s `tweak` curve.
- **Game clock** (`game_mode.dfy`): the Java robot's simulated game clock, which cycles disabled, autonomous, disabled, teleop.

The Python, Java and C++ copies of `Stats`, `LoadTest`, `DriveTickTimed`,
`DriveHuman` and `OI.initialize*` are modelled once. The table cites the
Python copy unless the member is about another copy. The copies agree on
every branch modelled here, with these exceptions:
- the Java and C++ `DriveHuman` deadband is 1/64 instead of 1/32;
- a zero ramp length gives infinities there rather than an error (see "Left out");
- the `DriveHuman` dashboard set-up:
  - Python runs it on the first `initialize` and overwrites the six controls with the defaults.
  - Java runs it once in the constructor (drive-java/src/main/java/frc/robot/commands/drive/DriveHuman.java:119-140), also overwriting, and its `initialize` only reads. A driver's edit made before the first `initialize` is therefore kept.
  - C++ runs it from `OI::setupDashboardCommands` (drive-cpp/src/main/cpp/OI.cpp:37-50; the `OI` constructor at OI.cpp:13-14 is empty) through `OI::initialize*`. It keeps existing values and seeds Quick Turn with `true` instead of `false`.
  - `DriveHuman.SetupDashboardControlsCpp` and `DriveHuman.SetupCopiesDiffer` model the C++ set-up. The Java timing is `DriveHuman.SetupDashboardControls` followed by `DriveHuman.Initialize` with no set-up in between.

In several places the climb code's own comments promise more than its
statements do. The model follows the statements:
- **Snapshots.** `Leg.hasExtended(priorCount)` answers "since a prior point in time" (astro/subsystems/climber.py:108-120). No lift step takes such a snapshot, though: each step's completion test asks the climber's current status (astro/commands/lift.py:130-194).
- **Level extension.** `fullyExtendBothLegs` "tries to … extend both legs while maintaining a level robot". It does so only by slowing one leg by at most 25% and passing `maxLeanUp` to move methods that climber.py does not define. No leg is cut off however far the robot leans.
- **Negative lean.** `reducePower`'s comment says it reduces power per degree of lean. The code passes the signed lean, so leaning forward raises the back leg's power (`Lift.ExtendShapesOneLeg`).
- **Stop band.** In `maintainBackLegs`, "leaning too far forward" is tested as `lean < -forwardLeanLimit`, which is `lean < 2 + maxLeanDown`. Leaning forward is negative lean, so the intended test reads `lean < desiredLean - maxLeanDown`. As written, the stop band is unreachable for any `maxLeanDown >= -3` (`Lift.MaintainNeverStops`).

## Model

| member | source | states |
|---|---|---|
| Dashboard.InitializeNumber | astro/oi.py:27-30 | returns the stored number when the label is present and the default otherwise. Afterwards the label holds the returned value; all other labels and all booleans are unchanged. |
| Dashboard.InitializeBoolean | astro/oi.py:33-36 | the same read-then-write-back contract for booleans, leaving numbers untouched |
| Dashboard.InitializeNumberPresentIsNoOp | drive-cpp/src/main/cpp/OI.cpp:22-26 | with the label present, the call returns the stored value and leaves the store unchanged, whatever the default |
| Dashboard.InitializeNumberIdempotent | astro/oi.py:27-30 | a second call with any default returns the first call's value and store |
| Dashboard.InitializeBooleanPresentIsNoOp | drive-cpp/src/main/cpp/OI.cpp:16-20 | with the label present, the boolean initialize is a no-op returning the stored value |
| Dashboard.InitializeBooleanIdempotent | astro/oi.py:33-36 | a second boolean initialize with any default returns the first call's value and store |
| CountUpdater.New | astro/physics.py:11-14 | a new updater has no cached counter index (-1) and last reading false |
| CountUpdater.FindFrom | astro/physics.py:19-23 | gives the first counter whose up-source channel is the watched input, or -1 exactly when there is none |
| CountUpdater.Update | astro/physics.py:16-29 | on a rising edge with a matching counter, that counter goes up by exactly 1 and nothing else changes. Otherwise no count changes. The index is cached on first use, and the last reading becomes the current one. |
| CountUpdater.RunCountsRisingEdges | astro/physics.py:16-29 | over any series of readings, the watched counter grows by exactly the number of rising edges, other counters are untouched, and the last reading is kept |
| CountUpdater.RunWithoutCounterChangesNothing | astro/physics.py:19-25 | with no counter on the input, no count ever changes and the cached index stays -1 |
| CountUpdater.FirstTrueReadingCounts | astro/physics.py:14-27 | because the initial last reading is false, a first true reading counts as an edge |
| Climber.HasExtended | astro/subsystems/climber.py:108-120 | true exactly when the extend switch is tripped or its count differs from the snapshot. Climber.TrippedSinceSurvivesRelease connects it to the simulator's counter. |
| Climber.HasRetracted | astro/subsystems/climber.py:136-149 | true exactly when the retract switch is tripped or its count differs from the snapshot |
| Climber.FreshSnapshotIsRawReading | astro/subsystems/climber.py:101-120 | with a snapshot equal to the current count, both queries reduce to the raw switch reading |
| Climber.TrippedSinceSurvivesRelease | astro/subsystems/climber.py:108-120 | once the simulator's counter has seen an edge after the snapshot, the leg reports the switch reached even with the switch released |
| Climber.IsOverFloor | astro/subsystems/climber.py:151-161 | without a hardware trigger, true exactly when the voltage exceeds 1.5 V; with one, the trigger's state, whose behaviour Climber.TriggerRemembersLastCrossing states |
| Climber.TriggerAgreesOutsideBand | astro/subsystems/climber.py:71-72 | below 1.0 V or above 2.0 V, the trigger's new state depends only on the voltage and agrees with the 1.5 V comparison |
| Climber.TriggerHoldsInsideBand | astro/subsystems/climber.py:71-72 | voltages that stay within [1.0, 2.0] never change the trigger |
| Climber.TriggerRemembersLastCrossing | astro/subsystems/climber.py:71-72 | the trigger reports which side of the band the voltage last left it on |
| Climber.SetMotorPower | astro/subsystems/climber.py:163-173 | the leg's motor takes the power and its sensors are unchanged |
| Climber.SetWheelPower | astro/subsystems/climber.py:269-274 | only the wheel power changes |
| Climber.StopWheels | astro/subsystems/climber.py:276-278 | the wheels go to 0 and the legs are untouched |
| Climber.StopAll | astro/subsystems/climber.py:280-284 | both leg motors and the wheels go to 0; sensors and the call count are kept |
| Climber.StopAllIdempotent | astro/subsystems/climber.py:280-284 | stopping twice is stopping once |
| Climber.Periodic | astro/subsystems/climber.py:286-289 | the call count goes up by one and the legs and wheels are untouched |
| Climber.RefreshEveryTenthCall | astro/subsystems/climber.py:286-294 | from call count c, n calls refresh the dashboard exactly (c+n)/10 - c/10 times |
| DriveSubsystem.ReadSensors | astro/subsystems/drive.py:218-234 | `periodic` reads the gyro and accelerometer, and each side's encoder distance and velocity (drive.py:124-126). The zero references and commanded powers are kept. |
| DriveSubsystem.ZeroAngle | astro/subsystems/drive.py:298-301 | afterwards angle and roll read 0, the raw values are unchanged, and the encoders are untouched |
| DriveSubsystem.ZeroThenReadReportsChange | astro/subsystems/drive.py:244-263 | after zeroing and a new read, angle and roll are the motion since zeroing, and the raw values are the new readings |
| DriveSubsystem.GetAngleRaw | astro/subsystems/drive.py:248-250 | the gyro's yaw as last read |
| DriveSubsystem.GetAngle | astro/subsystems/drive.py:244-246 | the yaw relative to the last zeroing: it adds back to the raw yaw, and is zero exactly when the raw yaw equals the reference |
| DriveSubsystem.GetRollRaw | astro/subsystems/drive.py:259-263 | the gyro's roll as last read |
| DriveSubsystem.GetRoll | astro/subsystems/drive.py:252-257 | the roll (the climb's lean) relative to the last zeroing: it adds back to the raw roll, and is zero exactly when the raw roll equals the reference |
| DriveSubsystem.ReadThenGetReportsReadings | astro/subsystems/drive.py:229-291 | after any read, the getters report the new readings: raw yaw and roll as read, angle and roll against the references kept from before, and all three averages of the new encoder values |
| DriveSubsystem.GetAvgDistance | astro/subsystems/drive.py:273-275 | exactly the mean of the two sides' distances (2·r = left + right): between them, and equal to them when they agree |
| DriveSubsystem.GetAvgVelocity | astro/subsystems/drive.py:277-283 | exactly the mean of the two velocities, between the smaller and the larger. Negative when both sides move backwards, positive when both move forwards, zero when spinning in place. |
| DriveSubsystem.GetAvgAbsVelocity | astro/subsystems/drive.py:285-291 | exactly the mean of the two speeds (2·r = abs(left) + abs(right)): non-negative, at least the magnitude of the average velocity, zero exactly when both sides are still |
| DriveSubsystem.BumpCheck | astro/subsystems/drive.py:315-324 | true exactly when either accelerometer axis is beyond its limit in either direction |
| DriveSubsystem.SetPower | astro/subsystems/drive.py:202-205 | each side takes its power and the sensors are unchanged |
| DriveSubsystem.Stop | astro/subsystems/drive.py:308-310 | both sides are commanded 0 |
| Lift.Configure | astro/commands/lift.py:32-40 | each setting comes from the dashboard with the current value as default. Retract is read and written negated. Every other number keeps its value and the booleans are unchanged. |
| Lift.ConfigurePublishes | astro/commands/lift.py:32-40 | afterwards the dashboard shows every setting in use, retract as its magnitude |
| Lift.ConfigureFreshKeepsConfig | astro/commands/lift.py:24-40 | on a dashboard without the labels, configuring keeps the command's values (the retract negation round-trips) |
| Lift.ConfigurePresentIsNoOp | astro/commands/lift.py:32-40 | with every label present, the settings are read from the dashboard and the dashboard is unchanged |
| Lift.ConfigureIdempotent | astro/commands/lift.py:32-43 | reconfiguring with any held values reproduces the first configuration and dashboard |
| Lift.Initialize | astro/commands/lift.py:42-43 | a step's start reloads the configuration exactly as configure does |
| Lift.IsLeaningForward | astro/commands/lift.py:58-64 | true exactly for negative lean |
| Lift.ReducePower | astro/commands/lift.py:66-75 | 0.75·p from lean 5 up, and p - p·lean/20 below. For p, lean >= 0 the result lies in [0.75·p, p]. A negative lean gives more than p. Zero lean gives p. |
| Lift.ReducePowerSamples | astro/commands/lift.py:72-75 | lean 2 gives 0.9·p; lean 5 and beyond give 0.75·p |
| Lift.ReducePowerMonotone | astro/commands/lift.py:72-75 | for non-negative power, more lean never gives more power |
| Lift.FullyExtendBothLegs | astro/commands/lift.py:77-94 | front then back leg command, both limited by maxLeanUp. A negative lean reduces the back leg's power; any other lean reduces the front leg's. |
| Lift.ExtendShapesOneLeg | astro/commands/lift.py:82-94 | off level, exactly one leg differs from extendSpeed. Leaning back slows the front by at most 25%; leaning forward speeds the back up. |
| Lift.MaintainBackLegs | astro/commands/lift.py:96-119 | branch order as written. Retract below 2 + maxLeanDown, else extend above maxLeanDown - 2, else stop in (-3, -1), else nothing; each of the last two exactly when its condition holds. |
| Lift.MaintainNeverStops | astro/commands/lift.py:104-119 | for maxLeanDown >= -3 the back leg is never stopped |
| Lift.MaintainAlwaysMovesBackLeg | astro/commands/lift.py:104-119 | for maxLeanDown >= 0, every lean issues exactly one back-leg move: retract below 2 + maxLeanDown, extend from there |
| Lift.MaintainAtDefaults | astro/commands/lift.py:104-116 | with the default settings, lean 0 and lean -2 retract with limit 6, and lean 7 extends with limit 2 |
| Lift.Execute | astro/commands/lift.py:127-181 | each step's per-tick commands in issue order, over the abstract climber calls. What they amount to is stated by Lift.FrontLegPerStep, Lift.StepsSharingBehaviour and Lift.FloorLossEndsRetractNotDrive. |
| Lift.FrontLegPerStep | astro/commands/lift.py:139-181 | front-leg power per step: shaped extend, retractSpeed in both retract steps, none while driving to a sensor |
| Lift.StepsSharingBehaviour | astro/commands/lift.py:158-194 | RetractBackLegs ignores the lean; DriveToBackSensor ticks exactly as DriveToFrontSensor |
| Lift.IsFinished | astro/commands/lift.py:130-194 | each step's completion predicate over the abstract climber status, both directions. Lift.FloorLossEndsRetractNotDrive states its consequence. |
| Lift.FloorLossEndsRetractNotDrive | astro/commands/lift.py:147-184 | losing the front floor reading ends RetractFrontLegs and never ends DriveToFrontSensor |
| Lift.End | astro/commands/lift.py:45-50 | ending any step stops both legs and the wheels and keeps the sensors |
| Lift.EndSettles | astro/commands/lift.py:45-50 | ending a second step after the first changes nothing |
| Lift.GetLeanAsWritten | astro/commands/lift.py:52-56 | the getter as written returns nothing |
| Lift.GetLean | astro/commands/lift.py:52-56 | the getter as intended returns the climber's lean |
| Lift.ExecuteWith | astro/commands/lift.py:52-119 | with a lean, a tick is Execute without error. Without one, a drive-to-sensor step stops with TypeError after setting the wheel power. |
| Lift.LeanStepsFailAsWritten | astro/commands/lift.py:52-56 | as written, a tick fails exactly for the four steps that read the lean; only RetractBackLegs moves the front leg |
| Lift.LeanStepsRunCorrected | astro/commands/lift.py:52-56 | with the lean returned, every step's tick is exactly Execute and raises no error |
| Lift.ClimbUpOrder | astro/commands/lift.py:197-207 | five steps, each once, starting with ExtendBothLegs and ending with RetractBackLegs |
| TickTimed.New | astro/commands/drive/driveticktimed.py:44-59 | starts finished (done). The powers are the dashboard's, 0.4 by default. The tick counts are the dashboard's truncated to integers, 20 and 40 by default. All four labels are published. |
| TickTimed.Initialize | astro/commands/drive/driveticktimed.py:61-70 | ramp-up with 0 ticks. Tick counts are reread and truncated (kept when absent). Powers are gain times the dashboard value. |
| TickTimed.IsFinished | astro/commands/drive/driveticktimed.py:72-73 | finished exactly in done |
| TickTimed.CheckModeChange | astro/commands/drive/driveticktimed.py:75-84 | switches mode and zeroes ticks exactly when ticks reach the count, otherwise changes nothing |
| TickTimed.Execute | astro/commands/drive/driveticktimed.py:86-118 | fails exactly on a zero-length ramp. Otherwise one more tick, or the next mode with 0 ticks. Stop exactly in done; full power while cruising. |
| TickTimed.End | astro/commands/drive/driveticktimed.py:120-129 | the drive is stopped |
| TickTimed.ExecuteFollowsPlan | astro/commands/drive/driveticktimed.py:86-118 | from initialize, each execution moves the reference state one tick on and issues the reference command |
| TickTimed.RunFollowsPlan | astro/commands/drive/driveticktimed.py:86-118 | n executions never fail, reach the reference state, and issue the reference commands in order |
| TickTimed.FinishesAfterProfile | astro/commands/drive/driveticktimed.py:86-112 | finished exactly after 2·rampTicks + max(cruiseTicks, 1) executions; the last profile tick commands zero power |
| TickTimed.PlannedShape | astro/commands/drive/driveticktimed.py:90-112 | ramp-up fraction k/R in (0, 1]; full power while cruising; ramp-down fraction in [0, 1); stop afterwards |
| TickTimed.ZeroRampFailsAtOnce | astro/commands/drive/driveticktimed.py:90-98 | a zero ramp length makes the first execution fail |
| TickTimed.NegativeRampReversesFirstTick | astro/commands/drive/driveticktimed.py:90-98 | a negative ramp length drives the first tick backwards and jumps to cruise |
| TickTimed.NewIsFinished | astro/commands/drive/driveticktimed.py:72-118 | before initialize the command is finished and an execution only stops the drive |
| DriveHuman.FlipFront | drive-py/commands/drive/drivehuman.py:27-34 | negates isFlipped, keeps brake mode, and shows the new value on the dashboard |
| DriveHuman.ToggleBrakeMode | drive-py/commands/drive/drivehuman.py:42-49 | negates brake mode, keeps isFlipped, and shows the new value |
| DriveHuman.TogglesAreInvolutions | drive-py/commands/drive/drivehuman.py:27-49 | toggling twice restores the flags and the dashboard shows the original values |
| DriveHuman.Defaults | drive-py/commands/drive/drivehuman.py:65-75 | arcade mode, squared inputs, no quick turn, fixed powers 0.4 and 0.4, rotation and slow gains 0.5 |
| DriveHuman.SetupDashboardControls | drive-py/commands/drive/drivehuman.py:86-96 | the six controls take their default values, overwriting what was there; every other number and boolean keeps its value |
| DriveHuman.Initialize | drive-py/commands/drive/drivehuman.py:109-116 | the mode comes from the chooser. Quick turn, square inputs, both fixed powers and both gains each come from the dashboard, with the held value as default. An empty dashboard keeps them. |
| DriveHuman.InitializeAfterSetupReadsDefaults | drive-py/commands/drive/drivehuman.py:86-116 | on the first initialize, right after set-up, the settings are the constructor defaults whatever was held |
| DriveHuman.InitializeCommand | drive-py/commands/drive/drivehuman.py:86-116 | the controls are set up only when no chooser exists yet, and that first initialize yields the constructor defaults. Later ones leave the dashboard as it is and read every setting from it. |
| DriveHuman.LaterInitializeReadsDashboard | drive-py/commands/drive/drivehuman.py:86-116 | a value the driver changed on the dashboard after set-up is the one a later initialize uses |
| DriveHuman.SetupDashboardControlsCpp | drive-cpp/src/main/cpp/commands/drive/DriveHuman.cpp:96-106 | the C++ set-up keeps every value already on the dashboard and seeds the missing ones, Quick Turn with true |
| DriveHuman.SetupCopiesDiffer | drive-cpp/src/main/cpp/commands/drive/DriveHuman.cpp:96-106 | on a fresh dashboard the first initialize has quick turn off in Python and on in C++. A value entered before set-up survives the C++ set-up; the Python set-up overwrites it. |
| DriveHuman.Gains | drive-py/commands/drive/drivehuman.py:121-127 | button 6 makes both gains the slow gain; otherwise 1 and the rotation gain |
| DriveHuman.DriveFixed | drive-py/commands/drive/drivehuman.py:164-191 | throttle outside the deadband gives ±(fixedLeft, fixedRight)·gain by its direction. Inside it, rotation gives (±fixedLeft, ∓fixedRight)·rotGain, or zero when centred. |
| DriveHuman.DriveFixedOdd | drive-py/commands/drive/drivehuman.py:164-191 | reversing both sticks reverses the fixed-mode output |
| DriveHuman.Execute | drive-py/commands/drive/drivehuman.py:118-153 | each mode yields its request kind, both directions; an unknown mode stops. Unflipped tank drives each side from its stick times this tick's throttle gain (slow gain while button 6 is held). Fixed mode is driveFixed with this tick's gains. Squaring and quick turn are passed through. |
| DriveHuman.StickToThrottle | drive-py/commands/drive/drivehuman.py:129-148 | unflipped arcade and curvature: throttle is the negated axis 1 times the throttle gain, rotation is axis 4 times the rotation gain |
| DriveHuman.FlipIsReversedThrottle | drive-py/commands/drive/drivehuman.py:129-173 | outside tank mode, flipping equals pushing the throttle stick the other way |
| DriveHuman.TankFlipSwapsSides | drive-py/commands/drive/drivehuman.py:135-142 | flipped tank maps (l, r) to (-r, -l), and doing that twice restores the request |
| DriveHuman.FlipKeepsRotation | drive-py/commands/drive/drivehuman.py:129-148 | in arcade and curvature, flipping negates throttle and keeps rotation |
| DriveHuman.IsFinished | drive-py/commands/drive/drivehuman.py:155-156 | never finishes on its own |
| DriveHuman.End | drive-py/commands/drive/drivehuman.py:158-162 | ending stops the drive |
| Stats.Zero | astro/math5511/stats.py:6-10 | all four fields zero |
| Stats.Add | astro/math5511/stats.py:30-38 | count +1 and sum +val. The first value sets both extremes; afterwards only an extreme passed by val moves. |
| Stats.GetAvg | astro/math5511/stats.py:24-28 | avg·cnt = sum when cnt > 0, else 0 |
| Stats.OfValuesSummarises | astro/math5511/stats.py:30-38 | after adding a sequence, count and sum are the sequence's. min and max are members of the sequence bounding every element. |
| Stats.AvgBetweenExtremes | astro/math5511/stats.py:24-38 | the mean of a non-empty sequence lies between min and max |
| Stats.ZeroForgets | astro/math5511/stats.py:30-38 | one value after zero gives count 1 and sum, min and max equal to that value |
| Stats.UpdateRunTime | drive-py/commands/performance.py:54-60 | last becomes the time in milliseconds, and exactly that value is added to the statistics |
| Stats.InitializePerformance | drive-py/commands/performance.py:62-65 | last 0 and statistics zeroed |
| Stats.MonitorTracksTimes | drive-py/commands/performance.py:54-65 | after initialize and a series of updates, the statistics are those of exactly the times in milliseconds, and last is the final one |
| Stats.ExecutePerformance | drive-py/commands/performance.py:67-71 | publishes last, the mean (avg·cnt = sum, and 0 before any run) and the maximum, touching nothing else |
| LoadTest.New | drive-py/commands/loadtest.py:9-16 | previousBelow false, 8096 loops, no time measured |
| LoadTest.Initialize | drive-py/commands/loadtest.py:36-41 | previousBelow false, 1 loop, no time measured |
| LoadTest.Execute | drive-py/commands/loadtest.py:43-49 | publishes the loop count about to run and records the measured time |
| LoadTest.IsFinished | drive-py/commands/loadtest.py:51-61 | finished exactly on a slow run after a fast one, unchanged then. A fast run doubles the loops and sets previousBelow; a slow one halves them (truncating) and clears it. |
| LoadTest.End | drive-py/commands/loadtest.py:63-68 | hz·secs = loops when time was measured, else 0; both values are published |
| LoadTest.FinishesAtFirstCrossing | drive-py/commands/loadtest.py:51-61 | a run finishes exactly at the first slow-after-fast tick, and never when there is none |
| LoadTest.PreviousBelowIsLastRunFast | drive-py/commands/loadtest.py:51-61 | while running, previousBelow says whether the last run was fast |
| LoadTest.FastRunsDouble | drive-py/commands/loadtest.py:58-60 | k fast runs multiply the loop count by 2^k and do not finish |
| LoadTest.FastRunsFromStart | drive-py/commands/loadtest.py:36-60 | from initialize, k fast runs leave exactly 2^k loops |
| LoadTest.ZeroLoopsStayZero | drive-py/commands/loadtest.py:56-60 | a zero loop count stays zero |
| LoadTest.FinishKeepsMeasuredRun | drive-py/commands/loadtest.py:51-68 | the finishing tick keeps the slow run's loops, so the reported rate is that run's loops per second |
| MinimalRobot.SetPower | minimal-py/robot.py:26-28 | each side takes its power |
| MinimalRobot.DrivePowerExecute | minimal-py/robot.py:40-41 | the drive runs at the command's two powers |
| MinimalRobot.DrivePowerEnd | minimal-py/robot.py:46-50 | end and interrupted stop both sides |
| MinimalRobot.ForwardBackwardOpposite | minimal-py/robot.py:132-133 | the dashboard's Forward and Backward commands drive opposite ways at equal power and stop the same |
| MinimalRobot.Tweak | minimal-py/robot.py:66-76 | zero stays zero; anything else comes out at least 3/8 in magnitude |
| MinimalRobot.SignedSquareBeyond | minimal-py/robot.py:71-75 | a positive scaled value gives more than 3/8, a negative one less than -3/8 |
| MinimalRobot.TweakKeepsSign | minimal-py/robot.py:66-76 | with a positive scale, the output has the input's sign and exceeds 3/8 in magnitude |
| MinimalRobot.TweakOdd | minimal-py/robot.py:66-76 | with a non-zero scale, reversing the stick reverses the output |
| MinimalRobot.TweakZeroScale | minimal-py/robot.py:71-75 | with a zero scale, every non-zero input gives -3/8 |
| MinimalRobot.TweakIncreasing | minimal-py/robot.py:66-76 | with a positive scale, tweak is strictly increasing |
| MinimalRobot.SignedSquareIncreasing | minimal-py/robot.py:71-75 | the signed square pushed out by 3/8 is strictly increasing |
| MinimalRobot.TweakBounded | minimal-py/robot.py:63-76 | for inputs in [-1, 1] and scale in (0, 1], the output stays within 49/64, which full stick at scale 1 reaches |
| MinimalRobot.DriveArcadeExecute | minimal-py/robot.py:81-85 | throttle at scale 1, rotation at scale 0.5, no further squaring |
| MinimalRobot.ArcadeDirections | minimal-py/robot.py:81-85 | throttle and rotation follow the sign of their inputs beyond 3/8, a centred stick gives zero throttle, and full turn gives 121/256 |
| GameMode.Init | drive-java/src/main/java/frc/robot/Robot.java:48-53 | starts disabled with the autonomous flag set and the timer started |
| GameMode.Step | drive-java/src/main/java/frc/robot/Robot.java:87-109 | changes mode exactly when the current mode's time (2, 15 or 30 s) is up, and then resets the timer. Enable keeps the flag; disable flips it. The announcement names the new mode. |
| GameMode.Periodic | drive-java/src/main/java/frc/robot/Robot.java:83-112 | publishes the game time, then steps |
| GameMode.StepAdvancesCycle | drive-java/src/main/java/frc/robot/Robot.java:87-109 | each announcement is the next of Auton, Disabled, Teleop, Disabled and advances the position by one |
| GameMode.NoDoubleSwitch | drive-java/src/main/java/frc/robot/Robot.java:87-109 | a second call at the same moment never changes mode again |
| GameMode.RunFollowsCycle | drive-java/src/main/java/frc/robot/Robot.java:83-112 | for any call times, the announcements follow the cycle from the current position |
| GameMode.AnnouncementsFromInit | drive-java/src/main/java/frc/robot/Robot.java:48-109 | from start-up the announcements are Auton, Disabled, Teleop, Disabled, repeating |

## Left out

- **Hardware.** Motor controllers, encoders, the gyro and the accelerometer, with their set-up (current limits, voltage compensation, inversion, neutral mode). Readings are inputs and outputs are the last power commanded.
- **Brake mode.** The Python `__setBrakeMode__(False)` sends nothing to the controllers, unlike its documentation (astro/subsystems/drive.py:62-69). Brake mode is modelled only as a flag.
- **WPILib.** `DifferentialDrive` (arcade, tank and curvature math, `stopMotor`, safety) and `applyDeadband` are not visible. The model stops at the request handed to them, and takes the deadbanded value as `tweak`'s input.
- **Telemetry.** Dashboard output beyond the modelled stores: velocity reports in the ramp modes, the climber's voltages and lean, and the measurement commands. The store holds numbers and booleans; a label holding the other type is not modelled.
- **Physics.** The physics simulator and its tank model. Only the rising-edge counter is modelled.
- **`runTest`.** The load test's busy loop is floating-point busywork, so the measured time is an input. Its sign rule also differs between the Python and Java copies.
- LoadTest.Execute: the values `runTest` adds to the command's `Stats` are not modelled. Neither is `initialize` zeroing them. The command never reads those statistics, so the `LoadTest` state has no statistics field.
- **Timing and scheduling.** Timers, FPGA timestamps, the watchdog, the command scheduler, command groups, requires/cancel and the robot lifecycle hooks. `ClimbUp` is an ordered list of steps. The game clock takes the current time as an input to each call.
- **Chooser.** The `SendableChooser` selection arrives as an integer input to `DriveHuman.Initialize`.
- **Java DriveHuman.** Its `initialize` also applies the brake-mode flag to the drive, a hardware call.
- **Missing callees.** The climber operations the lift steps call are not defined in climber.py, so they are abstract actions and status inputs: `moveFrontLegs`, `moveBackLegs`, `stopBack`, `isFullyExtendedBoth`, `isFullyRetracted*` and `is*OverGround`. Neither are `robotmap.kCompetitionBot`, `kRobotId`, `kAstroV1` or `drive.getPitch`, which `Climber.getLean` uses, so the lean is an input.
- **Encoders.** Encoder conversion constants (they involve π), and the real-number rounding of every power, lean and voltage.
- TickTimed.Execute: the Java and C++ copies divide by a zero ramp length in floating point, giving infinities or NaN instead of Python's `ZeroDivisionError`. Only the Python error is modelled.
- LoadTest.IsFinished: the loop count is an unbounded natural number; Java and C++ 32-bit `int` overflow after about 31 fast runs is not modelled. The count never goes negative, since it starts at 1 or 8096 and is only doubled or halved.
- Stats.Add: the extremes are stated for states with min <= max. Every state reached from `zero` satisfies this, as `Stats.OfValuesSummarises` shows. The count is unbounded, unlike the Java and C++ `int`.
- DriveHuman.SetupDashboardControlsCpp: the label constants it passes (`quickTurnLabel` … `slowGainLabel`, DriveHuman.cpp:99-104) are declared in a header that is not part of this model. They are taken to be the strings `initialize` reads (DriveHuman.cpp:124-129), so `DriveHuman.SetupCopiesDiffer`'s quick-turn difference rests on that assumption.
- CountUpdater.Update: counts are unbounded integers; the simulator's counter width is not modelled.

## Findings

| source | as written | input that shows it | evidently intended | confidence | as-written member | corrected member |
|---|---|---|---|---|---|---|
| astro/commands/lift.py:52-56 | `getLean` calls the climber's `getLean` and drops its value, so it returns `None` | any climber lean, e.g. 3.0: ExtendBothLegs evaluates `None < 0` and raises `TypeError` on its first tick. This assumes a climber object that returns a lean. As the tree stands, lift.py:4 imports `climber` while astro/subsystems/__init__.py:8 still binds it to None, so lift.py:56 raises `AttributeError` first. | return the climber's lean | high (not executed) | Lift.LeanStepsFailAsWritten | Lift.LeanStepsRunCorrected |

=== FILE: climber.dfy ===
/** The climber subsystem (astro/subsystems/climber.py): two legs, each with
    an extend-limit and a retract-limit switch (every switch paired with a
    rising-edge counter), a floor-presence sensor and a motor, plus the
    wheels at the foot of the back leg. Sensor values are inputs; motor
    outputs are the last power commanded. */
module Climber {
  import opened Common
  import CountUpdater

  /** A limit switch: its current reading and the lifetime count of its
      rising edges as kept by the hardware counter. */
  datatype LimitSensor = LimitSensor(tripped: bool, count: int)

  /** The floor sensor: the analog voltage, and the state of the hardware
      threshold trigger when there is one (the simulator has none). */
  datatype FloorSensor = FloorSensor(voltage: real, trigger: Option<bool>)

  datatype Leg = Leg(extended: LimitSensor, retracted: LimitSensor, floor: FloorSensor, motorPower: real)

  datatype Climber = Climber(front: Leg, back: Leg, wheelPower: real, periodicCnt: int)

  /** The switch has been reached since the count `prior` was taken: it is
      tripped now, or its counter has moved since. */
  predicate TrippedSince(s: LimitSensor, prior: int)
  {
    s.tripped || s.count != prior
  }

  /** `Leg.hasExtended(priorCount)`. */
  function HasExtended(leg: Leg, prior: int): (r: bool)
    ensures leg.extended.tripped ==> r
    ensures !r ==> leg.extended.count == prior
    ensures r ==> leg.extended.tripped || leg.extended.count != prior
  {
    TrippedSince(leg.extended, prior)
  }

  /** `Leg.hasRetracted(priorCount)`. */
  function HasRetracted(leg: Leg, prior: int): (r: bool)
    ensures leg.retracted.tripped ==> r
    ensures !r ==> leg.retracted.count == prior
    ensures r ==> leg.retracted.tripped || leg.retracted.count != prior
  {
    TrippedSince(leg.retracted, prior)
  }

  /** A snapshot taken now reduces the query to the raw switch reading. */
  lemma FreshSnapshotIsRawReading(leg: Leg)
    ensures HasExtended(leg, leg.extended.count) == leg.extended.tripped
    ensures HasRetracted(leg, leg.retracted.count) == leg.retracted.tripped
  {
  }

  /** Voltage above which the software-only floor check reports the floor. */
  const FloorVolts: real := 1.5
  /** Hardware trigger limits: below the lower it turns off, above the upper on. */
  const TriggerLowVolts: real := 1.0
  const TriggerHighVolts: real := 2.0

  /** `Leg.isOverFloor`: the hardware trigger's state when present,
      otherwise a single comparison against 1.5 V. */
  function IsOverFloor(leg: Leg): (r: bool)
    ensures leg.floor.trigger.None? ==> (r <==> leg.floor.voltage > 1.5)
    ensures leg.floor.trigger.Some? ==> r == leg.floor.trigger.value
  {
    match leg.floor.trigger
    case None => leg.floor.voltage > FloorVolts
    case Some(state) => state
  }

  /** One sample of the hardware trigger with hysteresis limits (1.0 V, 2.0 V). */
  function TriggerStep(state: bool, volts: real): (r: bool)
  {
    if volts < TriggerLowVolts then false
    else if volts > TriggerHighVolts then true
    else state
  }

  /** Outside the hysteresis band the trigger agrees with the software
      comparison, whatever its previous state. */
  lemma TriggerAgreesOutsideBand(state: bool, volts: real)
    requires volts < 1.0 || volts > 2.0
    ensures TriggerStep(state, volts) == (volts > FloorVolts)
    ensures TriggerStep(state, volts) == TriggerStep(!state, volts)
  {
  }

  /** Runs the trigger over a series of voltage samples. */
  function TriggerRun(state: bool, samples: seq<real>): bool
    decreases |samples|
  {
    if |samples| == 0 then state else TriggerRun(TriggerStep(state, samples[0]), samples[1..])
  }

  /** Noise that stays inside the band never changes the trigger. */
  lemma {:induction false} TriggerHoldsInsideBand(state: bool, samples: seq<real>)
    requires forall i :: 0 <= i < |samples| ==> 1.0 <= samples[i] <= 2.0
    ensures TriggerRun(state, samples) == state
    decreases |samples|
  {
    if |samples| > 0 {
      TriggerHoldsInsideBand(TriggerStep(state, samples[0]), samples[1..]);
    }
  }

  /** After the voltage last left the band, the trigger reports which side
      it left on: later in-band samples do not change that. */
  lemma {:induction false} TriggerRemembersLastCrossing(state: bool, samples: seq<real>, k: nat)
    requires k < |samples|
    requires samples[k] < 1.0 || samples[k] > 2.0
    requires forall i :: k < i < |samples| ==> 1.0 <= samples[i] <= 2.0
    ensures TriggerRun(state, samples) == (samples[k] > 2.0)
    decreases |samples|
  {
    if k == 0 {
      TriggerHoldsInsideBand(TriggerStep(state, samples[0]), samples[1..]);
    } else {
      TriggerRemembersLastCrossing(TriggerStep(state, samples[0]), samples[1..], k - 1);
    }
  }

  /** `Leg.setMotorPower`: no safety check, the power is stored as given. */
  function SetMotorPower(leg: Leg, power: real): (leg': Leg)
    ensures leg'.motorPower == power
    ensures leg'.extended == leg.extended && leg'.retracted == leg.retracted
    ensures leg'.floor == leg.floor
  {
    leg.(motorPower := power)
  }

  /** `Climber.setWheelPower`. Python's default argument (0.25) is kept as
      `DefaultWheelPower`; the lift steps always pass their own power. */
  function SetWheelPower(c: Climber, power: real): (c': Climber)
    ensures c'.wheelPower == power
    ensures c'.front == c.front && c'.back == c.back && c'.periodicCnt == c.periodicCnt
  {
    c.(wheelPower := power)
  }

  const DefaultWheelPower: real := 0.25

  /** `Climber.stopWheels`: only the wheels change. */
  function StopWheels(c: Climber): (c': Climber)
    ensures c'.wheelPower == 0.0
    ensures c'.front == c.front && c'.back == c.back && c'.periodicCnt == c.periodicCnt
  {
    SetWheelPower(c, 0.0)
  }

  /** `Climber.stopAll`: front leg, back leg and wheels all commanded to 0,
      sensors and the periodic counter untouched. */
  function StopAll(c: Climber): (c': Climber)
    ensures c'.front.motorPower == 0.0 && c'.back.motorPower == 0.0 && c'.wheelPower == 0.0
    ensures c'.front.extended == c.front.extended && c'.front.retracted == c.front.retracted
    ensures c'.back.extended == c.back.extended && c'.back.retracted == c.back.retracted
    ensures c'.front.floor == c.front.floor && c'.back.floor == c.back.floor
    ensures c'.periodicCnt == c.periodicCnt
  {
    var c1 := c.(front := SetMotorPower(c.front, 0.0));
    var c2 := c1.(back := SetMotorPower(c1.back, 0.0));
    StopWheels(c2)
  }

  /** Stopping twice is stopping once. */
  lemma StopAllIdempotent(c: Climber)
    ensures StopAll(StopAll(c)) == StopAll(c)
  {
  }

  /** `Climber.periodic`: bumps the call counter and reports whether this
      call refreshes the dashboard. */
  function Periodic(c: Climber): (res: (Climber, bool))
    ensures res.0.periodicCnt == c.periodicCnt + 1
    ensures res.0.front == c.front && res.0.back == c.back && res.0.wheelPower == c.wheelPower
  {
    var n := c.periodicCnt + 1;
    (c.(periodicCnt := n), n % 10 == 0)
  }

  /** Number of dashboard refreshes over `n` consecutive periodic calls. */
  function Refreshes(c: Climber, n: nat): (r: (Climber, nat))
    decreases n
  {
    if n == 0 then (c, 0)
    else
      var (c1, upd) := Periodic(c);
      var (c2, k) := Refreshes(c1, n - 1);
      (c2, k + (if upd then 1 else 0))
  }

  /** Starting from call count `c0`, `n` periodic calls refresh the
      dashboard exactly `(c0 + n) / 10 - c0 / 10` times: once on every call
      that brings the count to a multiple of ten (so `n / 10` times from a
      fresh subsystem). */
  lemma {:induction false} RefreshEveryTenthCall(c: Climber, n: nat)
    requires c.periodicCnt >= 0
    ensures Refreshes(c, n).0.periodicCnt == c.periodicCnt + n
    ensures Refreshes(c, n).1 == (c.periodicCnt + n) / 10 - c.periodicCnt / 10
    decreases n
  {
    if n > 0 {
      var (c1, upd) := Periodic(c);
      RefreshEveryTenthCall(c1, n - 1);
      var m := c.periodicCnt;
      assert upd <==> (m + 1) % 10 == 0;
      if (m + 1) % 10 == 0 {
        assert (m + 1) / 10 == m / 10 + 1;
      } else {
        assert (m + 1) / 10 == m / 10;
      }
    }
  }

  /** A counted edge is never forgotten: if the simulator's
      counter saw a rising edge after the snapshot `prior` was taken, the
      leg reports the switch reached even when it now reads released. */
  lemma {:induction false} TrippedSinceSurvivesRelease(
    u: CountUpdater.Updater, counters: seq<CountUpdater.HalCounter>, samples: seq<bool>)
    requires CountUpdater.Consistent(u, counters)
    requires CountUpdater.Find(counters, u.idx) != -1
    requires CountUpdater.RisingEdges(u.lastVal, samples) > 0
    ensures var i := CountUpdater.Find(counters, u.idx);
            var (u', c') := CountUpdater.Run(u, counters, samples);
            var prior := counters[i].count;
            TrippedSince(LimitSensor(false, c'[i].count), prior)
            && TrippedSince(LimitSensor(u'.lastVal, c'[i].count), prior)
  {
    CountUpdater.RunCountsRisingEdges(u, counters, samples);
  }
}

=== FILE: common.dfy ===
/** Small shared vocabulary: optional values, results with an error,
    and the numeric helpers the robot code gets from its host language. */
module Common {

  /** A value that may be missing (Python's `None`). */
  datatype Option<+T> = None | Some(value: T)

  /** The outcome of an operation that can fail with an error value. */
  datatype Result<+T, +E> = Ok(value: T) | Err(error: E) {
    predicate IsFailure() { Err? }
  }

  /** Absolute value (Python `abs`, C `fabs`). */
  function Abs(x: real): (r: real)
    ensures r >= 0.0
    ensures r == x || r == -x
    ensures x >= 0.0 ==> r == x
  {
    if x < 0.0 then -x else x
  }

  /** Python `min` of two reals. */
  function Min(a: real, b: real): (r: real)
    ensures r <= a && r <= b
    ensures r == a || r == b
  {
    if a <= b then a else b
  }

  /** Conversion of a real to an integer that truncates toward zero:
      Python `int(x)` and the C/Java `(int)` cast on an in-range value. */
  function Trunc(x: real): (n: int)
    ensures x >= 0.0 ==> 0 <= n && n as real <= x < n as real + 1.0
    ensures x < 0.0 ==> n <= 0 && n as real - 1.0 < x <= n as real
  {
    if x >= 0.0 then x.Floor else -((-x).Floor)
  }

  lemma TruncOfInt(n: int)
    ensures Trunc(n as real) == n
  {
  }
}

=== FILE: count_updater.dfy ===
/** The simulator's rising-edge counter (astro/physics.py `CountUpdater`).
    Each simulation step it samples one digital input; on a transition from
    not-tripped to tripped it adds one to the count of the hardware counter
    whose up-source channel is that input. This is the counter behind the
    climber legs' "tripped since snapshot" queries. */
module CountUpdater {

  /** One entry of the simulator's counter table. */
  datatype HalCounter = HalCounter(upSourceChannel: int, count: int)

  /** `idx` is the digital input watched, `cntIdx` the cached position of its
      counter in the table (-1 until found), `lastVal` the previous reading. */
  datatype Updater = Updater(idx: int, cntIdx: int, lastVal: bool)

  /** The constructor: nothing found yet, and the previous reading is false. */
  function New(idx: int): (u: Updater)
    ensures u.idx == idx && u.cntIdx == -1 && !u.lastVal
  {
    Updater(idx, -1, false)
  }

  /** The table position the search loop stops at: the first counter at or
      after `from` whose up-source channel is `idx`, or -1 if there is none. */
  function FindFrom(counters: seq<HalCounter>, idx: int, from: nat): (i: int)
    requires from <= |counters|
    ensures i == -1 || from <= i < |counters|
    ensures i == -1 <==> forall j :: from <= j < |counters| ==> counters[j].upSourceChannel != idx
    ensures i != -1 ==> counters[i].upSourceChannel == idx
    ensures i != -1 ==> forall j :: from <= j < i ==> counters[j].upSourceChannel != idx
    decreases |counters| - from
  {
    if from == |counters| then -1
    else if counters[from].upSourceChannel == idx then from
    else FindFrom(counters, idx, from + 1)
  }

  /** The search over the whole table. */
  function Find(counters: seq<HalCounter>, idx: int): (i: int)
  {
    FindFrom(counters, idx, 0)
  }

  /** A rising edge: the input reads tripped now and did not before. */
  predicate Rising(lastVal: bool, curVal: bool)
  {
    curVal && !lastVal
  }

  /** Only the count of entry `i` may differ between the two tables. */
  ghost predicate SameExceptCount(a: seq<HalCounter>, b: seq<HalCounter>, i: int)
  {
    |a| == |b|
    && (forall j :: 0 <= j < |a| ==> a[j].upSourceChannel == b[j].upSourceChannel)
    && (forall j :: 0 <= j < |a| && j != i ==> a[j] == b[j])
  }

  /** One call of `update` with the current reading `curVal`. The cached
      position must index the table (Python raises IndexError otherwise). */
  function Update(u: Updater, counters: seq<HalCounter>, curVal: bool): (res: (Updater, seq<HalCounter>))
    requires -1 <= u.cntIdx < |counters|
    ensures res.0.idx == u.idx && res.0.lastVal == curVal
    ensures -1 <= res.0.cntIdx < |res.1|
    ensures |res.1| == |counters|
    ensures forall j :: 0 <= j < |counters| ==>
              res.1[j].upSourceChannel == counters[j].upSourceChannel
              && res.1[j].count >= counters[j].count
    ensures !Rising(u.lastVal, curVal) ==> res.1 == counters && res.0.cntIdx == u.cntIdx
    ensures Rising(u.lastVal, curVal) && u.cntIdx == -1 ==> res.0.cntIdx == Find(counters, u.idx)
    ensures Rising(u.lastVal, curVal) && u.cntIdx != -1 ==> res.0.cntIdx == u.cntIdx
    ensures Rising(u.lastVal, curVal) && res.0.cntIdx != -1 ==>
              SameExceptCount(counters, res.1, res.0.cntIdx)
              && res.1[res.0.cntIdx].count == counters[res.0.cntIdx].count + 1
    ensures res.0.cntIdx == -1 ==> res.1 == counters
  {
    if Rising(u.lastVal, curVal) then
      var c := if u.cntIdx == -1 then Find(counters, u.idx) else u.cntIdx;
      var table :=
        if c != -1 then counters[c := counters[c].(count := counters[c].count + 1)]
        else counters;
      (Updater(u.idx, c, curVal), table)
    else
      (u.(lastVal := curVal), counters)
  }

  /** Number of rising edges in a run of readings that follows `lastVal`. */
  function RisingEdges(lastVal: bool, samples: seq<bool>): nat
    decreases |samples|
  {
    if |samples| == 0 then 0
    else (if Rising(lastVal, samples[0]) then 1 else 0) + RisingEdges(samples[0], samples[1..])
  }

  /** The updater is consistent with a table: its cache is unset or holds
      the first counter for its input. */
  ghost predicate Consistent(u: Updater, counters: seq<HalCounter>)
  {
    u.cntIdx == -1 || u.cntIdx == Find(counters, u.idx) != -1
  }

  /** Feeds a run of readings through `update`, one per simulation step. */
  function Run(u: Updater, counters: seq<HalCounter>, samples: seq<bool>): (res: (Updater, seq<HalCounter>))
    requires Consistent(u, counters)
    ensures |res.1| == |counters|
    decreases |samples|
  {
    if |samples| == 0 then (u, counters)
    else
      var (u1, c1) := Update(u, counters, samples[0]);
      FindFromSameChannels(counters, c1, u.idx, 0);
      Run(u1, c1, samples[1..])
  }

  /** Changing only counts does not move the search result. */
  lemma {:induction false} FindFromSameChannels(a: seq<HalCounter>, b: seq<HalCounter>, idx: int, from: nat)
    requires |a| == |b| && from <= |a|
    requires forall j :: 0 <= j < |a| ==> a[j].upSourceChannel == b[j].upSourceChannel
    ensures FindFrom(a, idx, from) == FindFrom(b, idx, from)
    decreases |a| - from
  {
    if from < |a| {
      FindFromSameChannels(a, b, idx, from + 1);
    }
  }

  /** Over any run of readings, the counter of the watched input grows by
      exactly the number of rising edges, every other counter is untouched,
      and the updater ends holding the last reading. */
  lemma {:induction false} RunCountsRisingEdges(u: Updater, counters: seq<HalCounter>, samples: seq<bool>)
    requires Consistent(u, counters)
    requires Find(counters, u.idx) != -1
    ensures var (u', c') := Run(u, counters, samples);
            var i := Find(counters, u.idx);
            SameExceptCount(counters, c', i)
            && c'[i].count == counters[i].count + RisingEdges(u.lastVal, samples)
            && (|samples| > 0 ==> u'.lastVal == samples[|samples| - 1])
            && (|samples| == 0 ==> u' == u)
    decreases |samples|
  {
    if |samples| > 0 {
      var i := Find(counters, u.idx);
      var (u1, c1) := Update(u, counters, samples[0]);
      FindFromSameChannels(counters, c1, u.idx, 0);
      assert Consistent(u1, c1);
      RunCountsRisingEdges(u1, c1, samples[1..]);
      var (u', c') := Run(u1, c1, samples[1..]);
      assert Run(u, counters, samples) == (u', c');
      if |samples| > 1 {
        assert samples[1..][|samples[1..]| - 1] == samples[|samples| - 1];
      }
    }
  }

  /** If no counter listens to the input, no count ever changes and the
      cache stays unset. */
  lemma {:induction false} RunWithoutCounterChangesNothing(u: Updater, counters: seq<HalCounter>, samples: seq<bool>)
    requires u.cntIdx == -1
    requires Find(counters, u.idx) == -1
    ensures Run(u, counters, samples).1 == counters
    ensures Run(u, counters, samples).0.cntIdx == -1
    decreases |samples|
  {
    if |samples| > 0 {
      var (u1, c1) := Update(u, counters, samples[0]);
      assert c1 == counters && u1.cntIdx == -1;
      RunWithoutCounterChangesNothing(u1, c1, samples[1..]);
    }
  }

  /** A fresh updater counts a first tripped reading as an edge. */
  lemma FirstTrueReadingCounts(idx: int, counters: seq<HalCounter>)
    requires Find(counters, idx) != -1
    ensures var i := Find(counters, idx);
            Update(New(idx), counters, true).1[i].count == counters[i].count + 1
  {
  }
}

=== FILE: dashboard.dfy ===
/** The operator dashboard's key/value store as the robot code uses it:
    read a setting with a compiled-in default, then write the value read
    back so the operator can see and edit it (astro/oi.py `OI.initializeNumber`,
    `OI.initializeBoolean`, and the same pair in drive-cpp's OI.cpp). */
module Dashboard {

  /** Number and boolean entries live under separate labels. */
  datatype Store = Store(numbers: map<string, real>, booleans: map<string, bool>)

  const Empty := Store(map[], map[])

  /** `SmartDashboard.getNumber(key, default)`. */
  function GetNumber(s: Store, key: string, default: real): (v: real)
    ensures key in s.numbers ==> v == s.numbers[key]
    ensures key !in s.numbers ==> v == default
  {
    if key in s.numbers then s.numbers[key] else default
  }

  /** `SmartDashboard.getBoolean(key, default)`. */
  function GetBoolean(s: Store, key: string, default: bool): (v: bool)
    ensures key in s.booleans ==> v == s.booleans[key]
    ensures key !in s.booleans ==> v == default
  {
    if key in s.booleans then s.booleans[key] else default
  }

  /** `SmartDashboard.putNumber(key, value)`. */
  function PutNumber(s: Store, key: string, value: real): (s': Store)
    ensures key in s'.numbers && s'.numbers[key] == value
    ensures s'.numbers.Keys == s.numbers.Keys + {key}
    ensures forall k :: k in s.numbers && k != key ==> s'.numbers[k] == s.numbers[k]
    ensures s'.booleans == s.booleans
  {
    s.(numbers := s.numbers[key := value])
  }

  /** `SmartDashboard.putBoolean(key, value)`. */
  function PutBoolean(s: Store, key: string, value: bool): (s': Store)
    ensures key in s'.booleans && s'.booleans[key] == value
    ensures s'.booleans.Keys == s.booleans.Keys + {key}
    ensures forall k :: k in s.booleans && k != key ==> s'.booleans[k] == s.booleans[k]
    ensures s'.numbers == s.numbers
  {
    s.(booleans := s.booleans[key := value])
  }

  /** Reads a number with a default and writes the value read back. */
  function InitializeNumber(s: Store, key: string, default: real): (res: (real, Store))
    ensures key in s.numbers ==> res.0 == s.numbers[key]
    ensures key !in s.numbers ==> res.0 == default
    ensures key in res.1.numbers && res.1.numbers[key] == res.0
    ensures res.1.numbers.Keys == s.numbers.Keys + {key}
    ensures forall k :: k in s.numbers && k != key ==> res.1.numbers[k] == s.numbers[k]
    ensures res.1.booleans == s.booleans
  {
    var v := GetNumber(s, key, default);
    (v, PutNumber(s, key, v))
  }

  /** Reads a boolean with a default and writes the value read back. */
  function InitializeBoolean(s: Store, key: string, default: bool): (res: (bool, Store))
    ensures key in s.booleans ==> res.0 == s.booleans[key]
    ensures key !in s.booleans ==> res.0 == default
    ensures key in res.1.booleans && res.1.booleans[key] == res.0
    ensures res.1.booleans.Keys == s.booleans.Keys + {key}
    ensures forall k :: k in s.booleans && k != key ==> res.1.booleans[k] == s.booleans[k]
    ensures res.1.numbers == s.numbers
  {
    var v := GetBoolean(s, key, default);
    (v, PutBoolean(s, key, v))
  }

  /** A key already on the dashboard keeps its value: initializing it
      changes nothing, whatever default is offered. */
  lemma InitializeNumberPresentIsNoOp(s: Store, key: string, default: real)
    requires key in s.numbers
    ensures InitializeNumber(s, key, default) == (s.numbers[key], s)
  {
    assert PutNumber(s, key, s.numbers[key]).numbers == s.numbers;
  }

  /** Initializing twice, with any two defaults, gives the first call's value
      and store: the operation is idempotent. */
  lemma InitializeNumberIdempotent(s: Store, key: string, d1: real, d2: real)
    ensures var (v1, s1) := InitializeNumber(s, key, d1);
            InitializeNumber(s1, key, d2) == (v1, s1)
  {
    var (v1, s1) := InitializeNumber(s, key, d1);
    InitializeNumberPresentIsNoOp(s1, key, d2);
  }

  lemma InitializeBooleanPresentIsNoOp(s: Store, key: string, default: bool)
    requires key in s.booleans
    ensures InitializeBoolean(s, key, default) == (s.booleans[key], s)
  {
    assert PutBoolean(s, key, s.booleans[key]).booleans == s.booleans;
  }

  lemma InitializeBooleanIdempotent(s: Store, key: string, d1: bool, d2: bool)
    ensures var (v1, s1) := InitializeBoolean(s, key, d1);
            InitializeBoolean(s1, key, d2) == (v1, s1)
  {
    var (v1, s1) := InitializeBoolean(s, key, d1);
    InitializeBooleanPresentIsNoOp(s1, key, d2);
  }
}

=== FILE: drive_human.dfy ===
/** Driver-controlled driving (`DriveHuman` with its `FlipFront` and
    brake-mode toggle commands): how one tick's joystick reading becomes a
    drive request in each of the four dashboard-selected modes.

    The joystick is read through its axes 1 (throttle, and the left stick in
    tank mode), 3 (right stick in tank mode) and 4 (rotation), and button 6
    (slow mode). Arcade, tank and curvature requests are handed to WPILib's
    `DifferentialDrive`, whose own shaping is not part of this model: the
    model stops at the request. */
module DriveHuman {
  import opened Common
  import Dashboard

  /** The two process-wide flags the toggle commands flip. */
  datatype Flags = Flags(isFlipped: bool, brakeMode: bool)

  const FlippedLabel := "Flipped Front"
  const BrakeLabel := "Brake Mode"

  /** `FlipFront.initialize`: the other end becomes the front, and the
      dashboard shows the new state. */
  function FlipFront(f: Flags, s: Dashboard.Store): (res: (Flags, Dashboard.Store))
    ensures res.0.isFlipped == !f.isFlipped && res.0.brakeMode == f.brakeMode
    ensures Dashboard.GetBoolean(res.1, FlippedLabel, f.isFlipped) == res.0.isFlipped
    ensures res.1.numbers == s.numbers
    ensures forall k :: k in s.booleans && k != FlippedLabel ==> k in res.1.booleans && res.1.booleans[k] == s.booleans[k]
  {
    var f' := f.(isFlipped := !f.isFlipped);
    (f', Dashboard.PutBoolean(s, FlippedLabel, f'.isFlipped))
  }

  /** The brake-mode toggle's `initialize`, symmetric to `FlipFront`. */
  function ToggleBrakeMode(f: Flags, s: Dashboard.Store): (res: (Flags, Dashboard.Store))
    ensures res.0.brakeMode == !f.brakeMode && res.0.isFlipped == f.isFlipped
    ensures Dashboard.GetBoolean(res.1, BrakeLabel, f.brakeMode) == res.0.brakeMode
    ensures res.1.numbers == s.numbers
    ensures forall k :: k in s.booleans && k != BrakeLabel ==> k in res.1.booleans && res.1.booleans[k] == s.booleans[k]
  {
    var f' := f.(brakeMode := !f.brakeMode);
    (f', Dashboard.PutBoolean(s, BrakeLabel, f'.brakeMode))
  }

  /** Pressing either toggle twice restores the flags, and the dashboard
      then shows their original values. */
  lemma TogglesAreInvolutions(f: Flags, s: Dashboard.Store)
    ensures var (f1, s1) := FlipFront(f, s);
            var (f2, s2) := FlipFront(f1, s1);
            f2 == f && s2.booleans[FlippedLabel] == f.isFlipped
    ensures var (f1, s1) := ToggleBrakeMode(f, s);
            var (f2, s2) := ToggleBrakeMode(f1, s1);
            f2 == f && s2.booleans[BrakeLabel] == f.brakeMode
  {
  }

  /** Drive modes, as the integers the mode chooser returns. */
  const ModeArcade: int := 0
  const ModeTank: int := 1
  const ModeCurvature: int := 2
  const ModeFixed: int := 3

  /** Settings `initialize` reads. */
  datatype Settings = Settings(
    mode: int,
    squareInputs: bool,
    quickTurn: bool,
    fixedLeft: real,
    fixedRight: real,
    rotationGain: real,
    slowGain: real,
    minDeflect: real)

  /** Constructor values. The Python robot's deadband is 1/32; the Java and
      C++ robots use 1/64. */
  function Defaults(minDeflect: real): (st: Settings)
    ensures st.mode == ModeArcade && st.squareInputs && !st.quickTurn
    ensures st.fixedLeft == 0.4 && st.fixedRight == 0.4
    ensures st.rotationGain == 0.5 && st.slowGain == 0.5 && st.minDeflect == minDeflect
  {
    Settings(ModeArcade, true, false, 0.4, 0.4, 0.5, 0.5, minDeflect)
  }
  const PyMinDeflect: real := 1.0 / 32.0
  const JavaMinDeflect: real := 1.0 / 64.0

  const QuickTurnLabel := "Quick Turn"
  const SquareInputsLabel := "Square Inputs"
  const FixedLeftLabel := "Fixed Left"
  const FixedRightLabel := "Fixed Right"
  const RotationGainLabel := "Rotation Gain"
  const SlowGainLabel := "Slow Gain"

  /** The one-time dashboard set-up: default values for every control,
      overwriting whatever was there. */
  function SetupDashboardControls(s: Dashboard.Store): (s': Dashboard.Store)
    ensures Dashboard.GetBoolean(s', QuickTurnLabel, true) == false
    ensures Dashboard.GetBoolean(s', SquareInputsLabel, false) == true
    ensures Dashboard.GetNumber(s', FixedLeftLabel, 0.0) == 0.4
    ensures Dashboard.GetNumber(s', FixedRightLabel, 0.0) == 0.4
    ensures Dashboard.GetNumber(s', RotationGainLabel, 0.0) == 0.5
    ensures Dashboard.GetNumber(s', SlowGainLabel, 0.0) == 0.5
    ensures forall k :: k in s.numbers && k != FixedLeftLabel && k != FixedRightLabel
                        && k != RotationGainLabel && k != SlowGainLabel ==>
              k in s'.numbers && s'.numbers[k] == s.numbers[k]
    ensures forall k :: k in s.booleans && k != QuickTurnLabel && k != SquareInputsLabel ==>
              k in s'.booleans && s'.booleans[k] == s.booleans[k]
  {
    var s1 := Dashboard.PutBoolean(s, QuickTurnLabel, false);
    var s2 := Dashboard.PutBoolean(s1, SquareInputsLabel, true);
    var s3 := Dashboard.PutNumber(s2, FixedLeftLabel, 0.4);
    var s4 := Dashboard.PutNumber(s3, FixedRightLabel, 0.4);
    var s5 := Dashboard.PutNumber(s4, RotationGainLabel, 0.5);
    Dashboard.PutNumber(s5, SlowGainLabel, 0.5)
  }

  /** The reads of `initialize`, once the controls exist: the mode from
      the chooser and every other setting from the dashboard, the current
      value as default. `InitializeCommand` adds the one-time set-up. */
  function Initialize(st: Settings, s: Dashboard.Store, selected: int): (st': Settings)
    ensures st'.mode == selected && st'.minDeflect == st.minDeflect
    ensures st'.quickTurn == Dashboard.GetBoolean(s, QuickTurnLabel, st.quickTurn)
    ensures st'.squareInputs == Dashboard.GetBoolean(s, SquareInputsLabel, st.squareInputs)
    ensures st'.fixedLeft == Dashboard.GetNumber(s, FixedLeftLabel, st.fixedLeft)
    ensures st'.fixedRight == Dashboard.GetNumber(s, FixedRightLabel, st.fixedRight)
    ensures st'.rotationGain == Dashboard.GetNumber(s, RotationGainLabel, st.rotationGain)
    ensures st'.slowGain == Dashboard.GetNumber(s, SlowGainLabel, st.slowGain)
    ensures s == Dashboard.Empty ==> st' == st.(mode := selected)
  {
    Settings(
      selected,
      Dashboard.GetBoolean(s, SquareInputsLabel, st.squareInputs),
      Dashboard.GetBoolean(s, QuickTurnLabel, st.quickTurn),
      Dashboard.GetNumber(s, FixedLeftLabel, st.fixedLeft),
      Dashboard.GetNumber(s, FixedRightLabel, st.fixedRight),
      Dashboard.GetNumber(s, RotationGainLabel, st.rotationGain),
      Dashboard.GetNumber(s, SlowGainLabel, st.slowGain),
      st.minDeflect)
  }

  /** Right after the set-up, `initialize` picks up the constructor
      defaults, whatever the command held before. */
  lemma InitializeAfterSetupReadsDefaults(st: Settings, s: Dashboard.Store, selected: int)
    ensures Initialize(st, SetupDashboardControls(s), selected)
            == Defaults(st.minDeflect).(mode := selected)
  {
  }

  /** `DriveHuman.initialize` as a whole: the controls are set up only when
      no chooser exists yet (the first `initialize` of any `DriveHuman`),
      then the settings are read. */
  function InitializeCommand(st: Settings, s: Dashboard.Store, chooserExists: bool, selected: int)
    : (res: (Settings, Dashboard.Store))
    ensures !chooserExists ==> res.0 == Defaults(st.minDeflect).(mode := selected)
    ensures chooserExists ==> res.1 == s
    ensures res.0 == Initialize(st, res.1, selected)
  {
    var s' := if chooserExists then s else SetupDashboardControls(s);
    InitializeAfterSetupReadsDefaults(st, s, selected);
    (Initialize(st, s', selected), s')
  }

  /** A later `initialize` keeps what the driver changed on the dashboard:
      with the controls in place, each setting is the dashboard's value. */
  lemma LaterInitializeReadsDashboard(st: Settings, s: Dashboard.Store, selected: int, v: real)
    ensures var s1 := Dashboard.PutNumber(SetupDashboardControls(s), SlowGainLabel, v);
            InitializeCommand(st, s1, true, selected).0.slowGain == v
  {
  }

  /** The C++ robot's one-time set-up, run from
      `OI::setupDashboardCommands`: every control goes through `OI::initialize*`, so a value
      already on the dashboard is kept, and Quick Turn is seeded `true`. */
  function SetupDashboardControlsCpp(s: Dashboard.Store): (s': Dashboard.Store)
    ensures Dashboard.GetBoolean(s', QuickTurnLabel, false) == Dashboard.GetBoolean(s, QuickTurnLabel, true)
    ensures Dashboard.GetBoolean(s', SquareInputsLabel, false) == Dashboard.GetBoolean(s, SquareInputsLabel, true)
    ensures Dashboard.GetNumber(s', FixedLeftLabel, 0.0) == Dashboard.GetNumber(s, FixedLeftLabel, 0.4)
    ensures Dashboard.GetNumber(s', FixedRightLabel, 0.0) == Dashboard.GetNumber(s, FixedRightLabel, 0.4)
    ensures Dashboard.GetNumber(s', RotationGainLabel, 0.0) == Dashboard.GetNumber(s, RotationGainLabel, 0.5)
    ensures Dashboard.GetNumber(s', SlowGainLabel, 0.0) == Dashboard.GetNumber(s, SlowGainLabel, 0.5)
  {
    var (_, s1) := Dashboard.InitializeBoolean(s, QuickTurnLabel, true);
    var (_, s2) := Dashboard.InitializeBoolean(s1, SquareInputsLabel, true);
    var (_, s3) := Dashboard.InitializeNumber(s2, FixedLeftLabel, 0.4);
    var (_, s4) := Dashboard.InitializeNumber(s3, FixedRightLabel, 0.4);
    var (_, s5) := Dashboard.InitializeNumber(s4, RotationGainLabel, 0.5);
    var (_, s6) := Dashboard.InitializeNumber(s5, SlowGainLabel, 0.5);
    s6
  }

  /** Where the copies part: on a fresh dashboard the Python set-up makes
      the first `initialize` drive without quick turn and the C++ set-up
      with it; and a value the driver entered before the set-up survives
      the C++ set-up but not the Python one. */
  lemma SetupCopiesDiffer(st: Settings, selected: int, v: real)
    ensures !Initialize(st, SetupDashboardControls(Dashboard.Empty), selected).quickTurn
    ensures Initialize(st, SetupDashboardControlsCpp(Dashboard.Empty), selected).quickTurn
    ensures var s := Dashboard.PutNumber(Dashboard.Empty, SlowGainLabel, v);
            Initialize(st, SetupDashboardControlsCpp(s), selected).slowGain == v
            && Initialize(st, SetupDashboardControls(s), selected).slowGain == 0.5
  {
  }

  /** One joystick reading. */
  datatype Pad = Pad(axis1: real, axis3: real, axis4: real, button6: bool)

  /** What one tick asks of the drive train. */
  datatype Request =
    | ArcadeDrive(throttle: real, rotation: real, squared: bool)
    | TankDrive(left: real, right: real, squared: bool)
    | CurvatureDrive(throttle: real, rotation: real, quickTurn: bool)
    | SetPower(leftPower: real, rightPower: real)
    | Stop

  /** Throttle and rotation gains of a tick: both become the slow gain while
      button 6 is held. */
  function Gains(st: Settings, pad: Pad): (g: (real, real))
    ensures pad.button6 ==> g == (st.slowGain, st.slowGain)
    ensures !pad.button6 ==> g == (1.0, st.rotationGain)
  {
    if pad.button6 then (st.slowGain, st.slowGain) else (1.0, st.rotationGain)
  }

  /** Which side of a deadband of half-width `md` a deflection lies on. */
  function Deflection(x: real, md: real): (d: int)
    ensures -1 <= d <= 1
  {
    if x > md then 1 else if x < -md then -1 else 0
  }

  /** `driveFixed`: full fixed power forward or backward once the throttle
      leaves the deadband; otherwise a spin in place at fixed power, scaled
      by the rotation gain, once the rotation leaves it; otherwise zero. The
      throttle here is not scaled by the gain before the test. The contract
      states this through the deflections: the throttle's picks the
      direction of both sides; only when it is centred does the rotation's
      pick opposite directions for the two sides. */
  function DriveFixed(st: Settings, flipped: bool, pad: Pad, gain: real, rotGain: real): (r: Request)
    ensures var t := Deflection(if flipped then pad.axis1 else -pad.axis1, st.minDeflect);
            t != 0 ==> r == SetPower(t as real * st.fixedLeft * gain, t as real * st.fixedRight * gain)
    ensures var t := Deflection(if flipped then pad.axis1 else -pad.axis1, st.minDeflect);
            var q := Deflection(pad.axis4, st.minDeflect);
            t == 0 ==> r == SetPower(q as real * st.fixedLeft * rotGain, -(q as real) * st.fixedRight * rotGain)
  {
    var throttle := if flipped then -(-pad.axis1) else -pad.axis1;
    var rotation := pad.axis4;
    if throttle > st.minDeflect then
      SetPower(st.fixedLeft * gain, st.fixedRight * gain)
    else if throttle < -st.minDeflect then
      SetPower(-st.fixedLeft * gain, -st.fixedRight * gain)
    else if rotation > st.minDeflect then
      SetPower(st.fixedLeft * rotGain, -st.fixedRight * rotGain)
    else if rotation < -st.minDeflect then
      SetPower(-st.fixedLeft * rotGain, st.fixedRight * rotGain)
    else
      SetPower(0.0 * rotGain, 0.0 * rotGain)
  }

  /** With a non-negative deadband, reversing the stick reverses the
      fixed-mode output. */
  lemma DriveFixedOdd(st: Settings, flipped: bool, pad: Pad, gain: real, rotGain: real)
    requires st.minDeflect >= 0.0
    ensures var r := DriveFixed(st, flipped, pad, gain, rotGain);
            var r' := DriveFixed(st, flipped, pad.(axis1 := -pad.axis1, axis4 := -pad.axis4), gain, rotGain);
            r'.leftPower == -r.leftPower && r'.rightPower == -r.rightPower
  {
  }

  /** `execute`: the request for one tick in the selected mode. */
  function Execute(st: Settings, flipped: bool, pad: Pad): (r: Request)
    ensures st.mode == ModeArcade <==> r.ArcadeDrive?
    ensures st.mode == ModeTank <==> r.TankDrive?
    ensures st.mode == ModeCurvature <==> r.CurvatureDrive?
    ensures st.mode == ModeFixed <==> r.SetPower?
    ensures r.Stop? <==> !(0 <= st.mode <= 3)
    ensures r.ArcadeDrive? ==> r.squared == st.squareInputs
    ensures r.TankDrive? ==> r.squared == st.squareInputs
    ensures r.CurvatureDrive? ==> r.quickTurn == st.quickTurn
    ensures r.TankDrive? && !flipped ==>
              r.left == -pad.axis1 * Gains(st, pad).0 && r.right == -pad.axis3 * Gains(st, pad).0
    ensures r.SetPower? ==> r == DriveFixed(st, flipped, pad, Gains(st, pad).0, Gains(st, pad).1)
  {
    var (gain, rotGain) := Gains(st, pad);
    if st.mode == ModeArcade then
      var throttle := -pad.axis1 * gain;
      var rotation := pad.axis4 * rotGain;
      ArcadeDrive(if flipped then -throttle else throttle, rotation, st.squareInputs)
    else if st.mode == ModeTank then
      var left := -pad.axis1 * gain;
      var right := -pad.axis3 * gain;
      if flipped then TankDrive(-right, -left, st.squareInputs)
      else TankDrive(left, right, st.squareInputs)
    else if st.mode == ModeCurvature then
      var throttle := -pad.axis1 * gain;
      var rotation := pad.axis4 * rotGain;
      CurvatureDrive(if flipped then -throttle else throttle, rotation, st.quickTurn)
    else if st.mode == ModeFixed then
      DriveFixed(st, flipped, pad, gain, rotGain)
    else
      Stop
  }

  /** Unflipped arcade and curvature: pushing the stick forward (negative
      axis 1) asks for forward throttle, scaled by the throttle gain, and
      axis 4 gives the rotation scaled by the rotation gain; slow mode puts
      the slow gain on both. */
  lemma StickToThrottle(st: Settings, pad: Pad)
    requires st.mode == ModeArcade || st.mode == ModeCurvature
    ensures var r := Execute(st, false, pad);
            var g := if pad.button6 then st.slowGain else 1.0;
            var rg := if pad.button6 then st.slowGain else st.rotationGain;
            (r.ArcadeDrive? ==> r.throttle == -pad.axis1 * g && r.rotation == pad.axis4 * rg)
            && (r.CurvatureDrive? ==> r.throttle == -pad.axis1 * g && r.rotation == pad.axis4 * rg)
  {
  }

  /** Flipping the front, in every mode but tank, is the same as pushing
      the throttle stick the other way. */
  lemma FlipIsReversedThrottle(st: Settings, pad: Pad)
    requires st.mode != ModeTank
    ensures Execute(st, true, pad) == Execute(st, false, pad.(axis1 := -pad.axis1))
  {
  }

  /** Tank mode flipped: each side takes the other stick, negated. */
  function TankFlip(r: Request): Request
    requires r.TankDrive?
  {
    TankDrive(-r.right, -r.left, r.squared)
  }

  /** In tank mode, flipping exchanges the sides and negates them, and
      flipping that again restores the unflipped request. */
  lemma TankFlipSwapsSides(st: Settings, pad: Pad)
    requires st.mode == ModeTank
    ensures Execute(st, true, pad) == TankFlip(Execute(st, false, pad))
    ensures TankFlip(TankFlip(Execute(st, false, pad))) == Execute(st, false, pad)
  {
  }

  /** Rotation is never affected by which end is the front. */
  lemma FlipKeepsRotation(st: Settings, pad: Pad)
    requires st.mode == ModeArcade || st.mode == ModeCurvature
    ensures Execute(st, true, pad).rotation == Execute(st, false, pad).rotation
    ensures Execute(st, true, pad).throttle == -Execute(st, false, pad).throttle
  {
  }

  /** `isFinished`: the command never ends on its own. */
  function IsFinished(st: Settings): (r: bool)
    ensures !r
  {
    false
  }

  /** `end`, also reached from `interrupted`. */
  function End(st: Settings): (r: Request)
    ensures r.Stop?
  {
    Stop
  }
}

=== FILE: drive_subsystem.dfy ===
/** The drive-train facade of astro/subsystems/drive.py: the last sensor
    readings (gyro yaw and roll, accelerometer, encoder distance and
    velocity per side), the zero references for yaw and roll, and the power
    last commanded to each side. Roll, zero-referenced, is the chassis lean
    the climb commands use on the practice robot. */
module DriveSubsystem {
  import opened Common

  /** The readings one call of `__readSensors__` takes. */
  datatype Readings = Readings(yaw: real, roll: real, accelX: real, accelY: real)

  /** Encoder values of one side, as last read. */
  datatype Side = Side(distance: real, velocity: real, power: real)

  datatype Drive = Drive(sensors: Readings, yawZero: real, rollZero: real, left: Side, right: Side)

  /** `Drive.periodic` taking a new set of gyro and accelerometer readings and
      encoder values; zero references and commanded power are kept. */
  function ReadSensors(d: Drive, r: Readings, leftDist: real, leftVel: real, rightDist: real, rightVel: real): (d': Drive)
    ensures d'.sensors == r
    ensures d'.yawZero == d.yawZero && d'.rollZero == d.rollZero
    ensures d'.left.power == d.left.power && d'.right.power == d.right.power
    ensures d'.left.distance == leftDist && d'.right.distance == rightDist
    ensures d'.left.velocity == leftVel && d'.right.velocity == rightVel
  {
    d.(sensors := r,
       left := d.left.(distance := leftDist, velocity := leftVel),
       right := d.right.(distance := rightDist, velocity := rightVel))
  }

  /** `getAngleRaw`: yaw as the gyro reports it. */
  function GetAngleRaw(d: Drive): (r: real)
    ensures r == d.sensors.yaw
  {
    d.sensors.yaw
  }

  /** `getAngle`: yaw relative to the last zeroing. */
  function GetAngle(d: Drive): (r: real)
    ensures r + d.yawZero == GetAngleRaw(d)
    ensures GetAngleRaw(d) == d.yawZero <==> r == 0.0
  {
    d.sensors.yaw - d.yawZero
  }

  /** `getRollRaw`: roll as the gyro reports it. */
  function GetRollRaw(d: Drive): (r: real)
    ensures r == d.sensors.roll
  {
    d.sensors.roll
  }

  /** `getRoll`: roll relative to the last zeroing; negative when leaning
      forward, positive when leaning backward. */
  function GetRoll(d: Drive): (r: real)
    ensures r + d.rollZero == GetRollRaw(d)
    ensures GetRollRaw(d) == d.rollZero <==> r == 0.0
  {
    d.sensors.roll - d.rollZero
  }

  /** `zeroAngle`: the current yaw and roll become the new references. */
  function ZeroAngle(d: Drive): (d': Drive)
    ensures GetAngle(d') == 0.0 && GetRoll(d') == 0.0
    ensures GetAngleRaw(d') == GetAngleRaw(d) && GetRollRaw(d') == GetRollRaw(d)
    ensures d'.left == d.left && d'.right == d.right
  {
    d.(yawZero := d.sensors.yaw, rollZero := d.sensors.roll)
  }

  /** After zeroing, the angle and roll report exactly the motion measured
      by the next readings relative to the readings at zeroing time. */
  lemma ZeroThenReadReportsChange(d: Drive, r: Readings, ld: real, lv: real, rd: real, rv: real)
    ensures var d' := ReadSensors(ZeroAngle(d), r, ld, lv, rd, rv);
            GetAngle(d') == r.yaw - d.sensors.yaw
            && GetRoll(d') == r.roll - d.sensors.roll
            && GetAngleRaw(d') == r.yaw && GetRollRaw(d') == r.roll
  {
  }

  /** Each getter reports the latest readings: yaw and roll relative to
      the references kept from before the read, and the encoder averages of
      the values just read. */
  lemma ReadThenGetReportsReadings(d: Drive, r: Readings, ld: real, lv: real, rd: real, rv: real)
    ensures var d' := ReadSensors(d, r, ld, lv, rd, rv);
            GetAngleRaw(d') == r.yaw && GetRollRaw(d') == r.roll
            && GetAngle(d') == r.yaw - d.yawZero && GetRoll(d') == r.roll - d.rollZero
            && 2.0 * GetAvgDistance(d') == ld + rd
            && 2.0 * GetAvgVelocity(d') == lv + rv
            && 2.0 * GetAvgAbsVelocity(d') == Abs(lv) + Abs(rv)
  {
  }

  /** `getAvgDistance`: mean of the two sides' distances. */
  function GetAvgDistance(d: Drive): (r: real)
    ensures 2.0 * r == d.left.distance + d.right.distance
    ensures Min(d.left.distance, d.right.distance) <= r
    ensures r <= d.left.distance || r <= d.right.distance
    ensures d.left.distance == d.right.distance ==> r == d.left.distance
  {
    (d.left.distance + d.right.distance) / 2.0
  }

  /** `getAvgVelocity`: mean of the two sides' velocities; negative when
      both sides move backwards, zero when spinning in place. */
  function GetAvgVelocity(d: Drive): (r: real)
    ensures 2.0 * r == d.left.velocity + d.right.velocity
    ensures d.left.velocity == -d.right.velocity ==> r == 0.0
    ensures d.left.velocity == d.right.velocity ==> r == d.left.velocity
    ensures Min(d.left.velocity, d.right.velocity) <= r
    ensures r <= d.left.velocity || r <= d.right.velocity
    ensures d.left.velocity < 0.0 && d.right.velocity < 0.0 ==> r < 0.0
    ensures d.left.velocity > 0.0 && d.right.velocity > 0.0 ==> r > 0.0
  {
    (d.left.velocity + d.right.velocity) / 2.0
  }

  /** `getAvgAbsVelocity`: mean of the two sides' speeds. */
  function GetAvgAbsVelocity(d: Drive): (r: real)
    ensures 2.0 * r == Abs(d.left.velocity) + Abs(d.right.velocity)
    ensures r >= 0.0
    ensures r >= Abs(GetAvgVelocity(d))
    ensures r == 0.0 <==> d.left.velocity == 0.0 && d.right.velocity == 0.0
  {
    (Abs(d.left.velocity) + Abs(d.right.velocity)) / 2.0
  }

  /** `bumpCheck(bumpX, bumpY)`: either accelerometer axis exceeds its limit. */
  function BumpCheck(d: Drive, bumpX: real, bumpY: real): (r: bool)
    ensures r <==> (d.sensors.accelX > bumpX || d.sensors.accelX < -bumpX
                    || d.sensors.accelY > bumpY || d.sensors.accelY < -bumpY)
  {
    Abs(d.sensors.accelX) > bumpX || Abs(d.sensors.accelY) > bumpY
  }

  /** Default bump limits of `bumpCheck`. */
  const DefaultBump: real := 0.4

  /** `setPower(left, right)`. */
  function SetPower(d: Drive, left: real, right: real): (d': Drive)
    ensures d'.left.power == left && d'.right.power == right
    ensures d'.sensors == d.sensors && d'.yawZero == d.yawZero && d'.rollZero == d.rollZero
    ensures d'.left.distance == d.left.distance && d'.right.distance == d.right.distance
    ensures d'.left.velocity == d.left.velocity && d'.right.velocity == d.right.velocity
  {
    d.(left := d.left.(power := left), right := d.right.(power := right))
  }

  /** `stop`: both sides commanded to 0. */
  function Stop(d: Drive): (d': Drive)
    ensures d'.left.power == 0.0 && d'.right.power == 0.0
    ensures d'.sensors == d.sensors && d'.yawZero == d.yawZero && d'.rollZero == d.rollZero
  {
    SetPower(d, 0.0, 0.0)
  }
}

=== FILE: game_mode.dfy ===
/** The simulated game clock of the Java drive robot (`Robot.robotInit` and
    `Robot.robotPeriodic` under simulation): starting disabled with the
    autonomous flag set, it waits 2 s, runs autonomous for 15 s, waits 2 s,
    runs teleop for 30 s, and repeats, announcing each change of mode.

    The timer is modelled by the time it was last reset; the current time
    is an input of each periodic call. */
module GameMode {
  import opened Common
  import Dashboard

  /** The simulated driver station and its timer. */
  datatype Sim = Sim(enabled: bool, autonomous: bool, timerStart: real)

  const DisabledSecs: real := 2.0
  const AutonSecs: real := 15.0
  const TeleopSecs: real := 30.0

  const GameTimeLabel := "Game Time"
  const AutonName := "Auton"
  const TeleopName := "Teleop"
  const DisabledName := "Disabled"

  /** The simulation branch of `robotInit` at time `now`: disabled, the
      autonomous flag set, the timer started. */
  function Init(now: real): (g: Sim)
    ensures !g.enabled && g.autonomous && g.timerStart == now
  {
    Sim(false, true, now)
  }

  /** Time on the timer at `now`. */
  function Elapsed(g: Sim, now: real): real
  {
    now - g.timerStart
  }

  /** The name the dashboard shows for the mode the simulation is in. */
  function ModeName(g: Sim): string
  {
    if !g.enabled then DisabledName else if g.autonomous then AutonName else TeleopName
  }

  /** The mode logic of `robotPeriodic` with a simulated driver station:
      when the current mode's time is up, switch mode, reset the timer and
      announce the new mode. */
  function Step(g: Sim, now: real): (res: (Sim, Option<string>))
    ensures res.1.Some? <==>
              (if !g.enabled then now - g.timerStart >= DisabledSecs
               else if g.autonomous then now - g.timerStart >= AutonSecs
               else now - g.timerStart >= TeleopSecs)
    ensures res.1.None? ==> res.0 == g
    ensures res.1.Some? ==>
              res.0.timerStart == now && res.0.enabled == !g.enabled
              && res.0.autonomous == (if g.enabled then !g.autonomous else g.autonomous)
              && res.1.value == ModeName(res.0)
  {
    var dur := Elapsed(g, now);
    if g.enabled then
      if g.autonomous then
        if dur >= AutonSecs then (Sim(false, false, now), Some(DisabledName))
        else (g, None)
      else
        if dur >= TeleopSecs then (Sim(false, true, now), Some(DisabledName))
        else (g, None)
    else
      if dur >= DisabledSecs then
        (g.(enabled := true, timerStart := now), Some(if g.autonomous then AutonName else TeleopName))
      else (g, None)
  }

  /** `robotPeriodic`: publish the game time, then `Step`. */
  function Periodic(g: Sim, now: real, s: Dashboard.Store): (res: (Sim, Option<string>, Dashboard.Store))
    ensures Dashboard.GetNumber(res.2, GameTimeLabel, 0.0) == now - g.timerStart
    ensures (res.0, res.1) == Step(g, now)
  {
    var (g', ann) := Step(g, now);
    (g', ann, Dashboard.PutNumber(s, GameTimeLabel, Elapsed(g, now)))
  }

  /** The four announcements of one cycle, in order. */
  const Cycle: seq<string> := [AutonName, DisabledName, TeleopName, DisabledName]

  /** Where the simulation stands in the cycle: the index in `Cycle` of the
      next announcement it will make. */
  function Position(g: Sim): (p: nat)
    ensures p < 4
  {
    if !g.enabled then (if g.autonomous then 0 else 2)
    else if g.autonomous then 1 else 3
  }

  /** Each announcement is the next one of the cycle, and moves the
      simulation one step along it. */
  lemma StepAdvancesCycle(g: Sim, now: real)
    ensures var (g', ann) := Step(g, now);
            (ann.Some? ==> ann.value == Cycle[Position(g)] && Position(g') == (Position(g) + 1) % 4)
            && (ann.None? ==> Position(g') == Position(g))
  {
  }

  /** A mode change resets the timer, so a second call at the same moment
      never changes mode again. */
  lemma NoDoubleSwitch(g: Sim, now: real)
    ensures Step(Step(g, now).0, now).1.None?
  {
  }

  /** Periodic calls at a series of times: the final state and the
      announcements made, in order. */
  function Run(g: Sim, times: seq<real>): (Sim, seq<string>)
    decreases |times|
  {
    if |times| == 0 then (g, [])
    else
      var (g1, ann) := Step(g, times[0]);
      var (g2, anns) := Run(g1, times[1..]);
      (g2, (if ann.Some? then [ann.value] else []) + anns)
  }

  /** The announcements `anns` follow the cycle from position `p`. */
  predicate FollowsCycle(anns: seq<string>, p: nat)
  {
    forall k :: 0 <= k < |anns| ==> anns[k] == Cycle[(p + k) % 4]
  }

  /** Whatever the timing of the calls, the announcements follow the cycle
      from where the simulation stands, and the final position is as many
      steps further. */
  lemma {:induction false} RunFollowsCycle(g: Sim, times: seq<real>)
    ensures FollowsCycle(Run(g, times).1, Position(g))
    ensures Position(Run(g, times).0) == (Position(g) + |Run(g, times).1|) % 4
    decreases |times|
  {
    if |times| > 0 {
      var (g1, ann) := Step(g, times[0]);
      StepAdvancesCycle(g, times[0]);
      RunFollowsCycle(g1, times[1..]);
      if ann.Some? {
        ConsFollowsCycle(ann.value, Run(g1, times[1..]).1, Position(g));
      } else {
        assert Run(g, times).1 == Run(g1, times[1..]).1;
      }
    }
  }

  lemma ConsFollowsCycle(a: string, anns: seq<string>, p: nat)
    requires p < 4 && a == Cycle[p] && FollowsCycle(anns, (p + 1) % 4)
    ensures FollowsCycle([a] + anns, p)
  {
    var all := [a] + anns;
    forall k | 0 <= k < |all|
      ensures all[k] == Cycle[(p + k) % 4]
    {
      if k > 0 {
        assert all[k] == anns[k - 1];
        assert ((p + 1) % 4 + (k - 1)) % 4 == (p + k) % 4;
      }
    }
  }

  /** From `robotInit` the announcements are Auton, Disabled, Teleop,
      Disabled, Auton, ... */
  lemma AnnouncementsFromInit(start: real, times: seq<real>)
    ensures FollowsCycle(Run(Init(start), times).1, 0)
  {
    RunFollowsCycle(Init(start), times);
  }
}

=== FILE: lift.dfy ===
/** The climb commands of astro/commands/lift.py: the shared configuration
    reloaded from the dashboard, the lean-based power shaping, the five climb
    steps and the fixed `ClimbUp` order.

    Lean is an input in degrees: negative when the chassis leans forward,
    positive when it leans backward. The climber operations the steps call
    (`moveFrontLegs`, `moveBackLegs`, `stopBack`, `isFullyExtendedBoth`,
    `isFullyRetracted*`, `is*OverGround`) are not defined in climber.py, so a
    step's per-tick behaviour is the list of commands it issues, and the
    completion predicates read their answers from a `ClimbStatus` input. */
module Lift {
  import opened Common
  import Dashboard
  import Climber

  /** Settings every lift command reloads when it starts. */
  datatype Config = Config(
    extendSpeed: real,
    retractSpeed: real,
    wheelPower: real,
    maxLeanUp: real,
    maxLeanDown: real)

  /** The compiled-in values set by the `LiftCommand` constructor. */
  const Defaults := Config(0.9, -0.9, 0.75, 2.0, 4.0)

  const ExtendLabel := "Climb Extend Power"
  const RetractLabel := "Climb Retract Power"
  const WheelLabel := "Climb Wheel Power"
  const LeanUpLabel := "Climb Max Lean Up"
  const LeanDownLabel := "Climb Max Lean Down"

  /** The five dashboard labels are distinct keys. */
  lemma LabelsDistinct()
    ensures |{ExtendLabel, RetractLabel, WheelLabel, LeanUpLabel, LeanDownLabel}| == 5
  {
    assert ExtendLabel[6] == 'E' && RetractLabel[6] == 'R' && WheelLabel[6] == 'W';
    assert LeanUpLabel[6] == 'M' && LeanDownLabel[6] == 'M';
    assert LeanUpLabel[15] == 'U' && LeanDownLabel[15] == 'D';
  }

  /** `LiftCommand.configure`: each setting is read with the current value as
      default and written back. The retract speed is shown on the dashboard
      as a positive number and negated on the way in and out. */
  function Configure(s: Dashboard.Store, cfg: Config): (res: (Config, Dashboard.Store))
    ensures res.0.extendSpeed == Dashboard.GetNumber(s, ExtendLabel, cfg.extendSpeed)
    ensures res.0.retractSpeed == -Dashboard.GetNumber(s, RetractLabel, -cfg.retractSpeed)
    ensures res.0.wheelPower == Dashboard.GetNumber(s, WheelLabel, cfg.wheelPower)
    ensures res.0.maxLeanUp == Dashboard.GetNumber(s, LeanUpLabel, cfg.maxLeanUp)
    ensures res.0.maxLeanDown == Dashboard.GetNumber(s, LeanDownLabel, cfg.maxLeanDown)
    ensures res.1.booleans == s.booleans
    ensures res.1.numbers.Keys == s.numbers.Keys + {ExtendLabel, RetractLabel, WheelLabel, LeanUpLabel, LeanDownLabel}
    ensures forall k :: k in s.numbers && k != ExtendLabel && k != RetractLabel && k != WheelLabel
                        && k != LeanUpLabel && k != LeanDownLabel ==>
              res.1.numbers[k] == s.numbers[k]
  {
    LabelsDistinct();
    var (e, s1) := Dashboard.InitializeNumber(s, ExtendLabel, cfg.extendSpeed);
    var (r, s2) := Dashboard.InitializeNumber(s1, RetractLabel, -cfg.retractSpeed);
    var (w, s3) := Dashboard.InitializeNumber(s2, WheelLabel, cfg.wheelPower);
    var (u, s4) := Dashboard.InitializeNumber(s3, LeanUpLabel, cfg.maxLeanUp);
    var (d, s5) := Dashboard.InitializeNumber(s4, LeanDownLabel, cfg.maxLeanDown);
    (Config(e, -r, w, u, d), s5)
  }

  /** The dashboard after configuring shows every setting the command now
      uses, the retract speed as its magnitude. */
  lemma ConfigurePublishes(s: Dashboard.Store, cfg: Config)
    ensures var (c, s') := Configure(s, cfg);
            s'.numbers[ExtendLabel] == c.extendSpeed
            && s'.numbers[RetractLabel] == -c.retractSpeed
            && s'.numbers[WheelLabel] == c.wheelPower
            && s'.numbers[LeanUpLabel] == c.maxLeanUp
            && s'.numbers[LeanDownLabel] == c.maxLeanDown
  {
    LabelsDistinct();
  }

  /** With none of the settings on the dashboard yet, configuring keeps the
      command's own values (the negation of the retract speed round-trips). */
  lemma ConfigureFreshKeepsConfig(s: Dashboard.Store, cfg: Config)
    requires ExtendLabel !in s.numbers && RetractLabel !in s.numbers && WheelLabel !in s.numbers
    requires LeanUpLabel !in s.numbers && LeanDownLabel !in s.numbers
    ensures Configure(s, cfg).0 == cfg
  {
  }

  /** With every setting already on the dashboard, configuring reads them
      all and changes nothing on the dashboard, whatever the command held. */
  lemma ConfigurePresentIsNoOp(s: Dashboard.Store, cfg: Config)
    requires ExtendLabel in s.numbers && RetractLabel in s.numbers && WheelLabel in s.numbers
    requires LeanUpLabel in s.numbers && LeanDownLabel in s.numbers
    ensures Configure(s, cfg).1 == s
    ensures Configure(s, cfg).0 == Config(s.numbers[ExtendLabel], -s.numbers[RetractLabel],
                                          s.numbers[WheelLabel], s.numbers[LeanUpLabel], s.numbers[LeanDownLabel])
  {
    Dashboard.InitializeNumberPresentIsNoOp(s, ExtendLabel, cfg.extendSpeed);
    Dashboard.InitializeNumberPresentIsNoOp(s, RetractLabel, -cfg.retractSpeed);
    Dashboard.InitializeNumberPresentIsNoOp(s, WheelLabel, cfg.wheelPower);
    Dashboard.InitializeNumberPresentIsNoOp(s, LeanUpLabel, cfg.maxLeanUp);
    Dashboard.InitializeNumberPresentIsNoOp(s, LeanDownLabel, cfg.maxLeanDown);
  }

  /** Reconfiguring, whatever values the command holds, reproduces the first
      configuration and leaves the dashboard as it was. */
  lemma ConfigureIdempotent(s: Dashboard.Store, cfg: Config, other: Config)
    ensures var (c, s') := Configure(s, cfg);
            Configure(s', other) == (c, s')
  {
    ConfigurePublishes(s, cfg);
    var (c, s') := Configure(s, cfg);
    ConfigurePresentIsNoOp(s', other);
  }

  /** Commands a lift step issues during one tick, in issue order. */
  datatype Action =
    | MoveFrontLegs(power: real, maxLean: real)
    | MoveBackLegs(power: real, maxLean: real)
    | StopBack
    | SetWheelPower(wheel: real)
    | DriveSetPower(left: real, right: real)

  /** `LiftCommand.isLeaningForward`. */
  function IsLeaningForward(lean: real): (r: bool)
    ensures r <==> lean < 0.0
  {
    lean < 0.0
  }

  /** `LiftCommand.reducePower`: 5% less power per degree of lean, at most 25% less. */
  function ReducePower(power: real, lean: real): (r: real)
    ensures lean >= 5.0 ==> r == 0.75 * power
    ensures lean <= 5.0 ==> r == power - power * lean / 20.0
    ensures power >= 0.0 && lean >= 0.0 ==> 0.75 * power <= r <= power
    ensures power > 0.0 && lean < 0.0 ==> r > power
    ensures lean == 0.0 ==> r == power
  {
    var reduction := Min(0.05 * lean, 0.25);
    if power >= 0.0 && lean >= 0.0 then
      MulNonNegative(power, reduction);
      power * (1.0 - reduction)
    else
      power * (1.0 - reduction)
  }

  /** The two documented sample points. */
  lemma ReducePowerSamples(power: real)
    ensures ReducePower(power, 2.0) == 0.9 * power
    ensures ReducePower(power, 5.0) == 0.75 * power
    ensures ReducePower(power, 12.5) == 0.75 * power
  {
  }

  /** Reduction grows with lean: more lean never yields more power (for
      non-negative power). */
  lemma ReducePowerMonotone(power: real, lean1: real, lean2: real)
    requires power >= 0.0 && lean1 <= lean2
    ensures ReducePower(power, lean2) <= ReducePower(power, lean1)
  {
    var r1 := Min(0.05 * lean1, 0.25);
    var r2 := Min(0.05 * lean2, 0.25);
    assert r1 <= r2;
    MulNonNegative(power, r2 - r1);
    assert ReducePower(power, lean2) == power - power * r2;
    assert ReducePower(power, lean1) == power - power * r1;
  }

  lemma MulNonNegative(a: real, b: real)
    requires a >= 0.0 && b >= 0.0
    ensures a * b >= 0.0
  {
  }

  /** `LiftCommand.fullyExtendBothLegs`: both legs extend at `extendSpeed`
      except the one the lean sign selects, whose power passes through
      `reducePower` with the signed lean: the back leg when leaning forward,
      otherwise the front leg. Both commands carry `maxLeanUp`. */
  function FullyExtendBothLegs(cfg: Config, lean: real): (r: seq<Action>)
    ensures |r| == 2 && r[0].MoveFrontLegs? && r[1].MoveBackLegs?
    ensures r[0].maxLean == cfg.maxLeanUp && r[1].maxLean == cfg.maxLeanUp
    ensures lean < 0.0 ==> r[0].power == cfg.extendSpeed && r[1].power == ReducePower(cfg.extendSpeed, lean)
    ensures lean >= 0.0 ==> r[1].power == cfg.extendSpeed && r[0].power == ReducePower(cfg.extendSpeed, lean)
  {
    var front := cfg.extendSpeed;
    var back := cfg.extendSpeed;
    var (front', back') :=
      if IsLeaningForward(lean) then (front, ReducePower(back, lean))
      else (ReducePower(front, lean), back);
    [MoveFrontLegs(front', cfg.maxLeanUp), MoveBackLegs(back', cfg.maxLeanUp)]
  }

  /** Exactly one leg's power differs from `extendSpeed` when the robot is
      not level and the speed is non-zero. Leaning backward slows the front
      leg by at most 25%; leaning forward passes a negative lean to
      `reducePower`, which speeds the back leg up instead of slowing it. */
  lemma ExtendShapesOneLeg(cfg: Config, lean: real)
    requires cfg.extendSpeed > 0.0 && lean != 0.0
    ensures var r := FullyExtendBothLegs(cfg, lean);
            (r[0].power == cfg.extendSpeed) != (r[1].power == cfg.extendSpeed)
    ensures var r := FullyExtendBothLegs(cfg, lean);
            lean > 0.0 ==> 0.75 * cfg.extendSpeed <= r[0].power < cfg.extendSpeed
    ensures var r := FullyExtendBothLegs(cfg, lean);
            lean < 0.0 ==> r[1].power > cfg.extendSpeed
  {
    var p := cfg.extendSpeed;
    if lean > 0.0 {
      var red := Min(0.05 * lean, 0.25);
      assert red > 0.0;
      assert p * (1.0 - red) < p by { assert p * red > 0.0; }
    }
  }

  /** Target lean of `maintainBackLegs` and the half-width of its stop band. */
  const DesiredLean: real := -2.0
  const OffLean: real := 1.0

  /** `LiftCommand.maintainBackLegs`, branch for branch: retract the back
      leg while `lean < -forwardLeanLimit`, else extend it while
      `lean > backwardLeanLimit`, else stop it inside the band around the
      desired lean, else issue nothing. With `forwardLeanLimit =
      desiredLean - maxLeanDown` the first test reads `lean < 2 + maxLeanDown`. */
  function MaintainBackLegs(cfg: Config, lean: real): (r: seq<Action>)
    ensures |r| <= 1
    ensures lean < 2.0 + cfg.maxLeanDown ==> r == [MoveBackLegs(cfg.retractSpeed, 2.0 + cfg.maxLeanDown)]
    ensures lean >= 2.0 + cfg.maxLeanDown && lean > cfg.maxLeanDown - 2.0 ==>
              r == [MoveBackLegs(cfg.extendSpeed, cfg.maxLeanDown - 2.0)]
    ensures r == [StopBack] <==>
              lean >= 2.0 + cfg.maxLeanDown && lean <= cfg.maxLeanDown - 2.0 && -3.0 < lean < -1.0
    ensures r == [] <==>
              lean >= 2.0 + cfg.maxLeanDown && lean <= cfg.maxLeanDown - 2.0 && !(-3.0 < lean < -1.0)
  {
    var forwardLeanLimit := DesiredLean - cfg.maxLeanDown;
    var backwardLeanLimit := DesiredLean + cfg.maxLeanDown;
    if lean < -forwardLeanLimit then
      [MoveBackLegs(cfg.retractSpeed, -forwardLeanLimit)]
    else if lean > backwardLeanLimit then
      [MoveBackLegs(cfg.extendSpeed, backwardLeanLimit)]
    else if lean > DesiredLean - OffLean && lean < DesiredLean + OffLean then
      [StopBack]
    else
      []
  }

  /** Because of the sign of `-forwardLeanLimit`, the stop branch can only be
      taken when `maxLeanDown < -3`: for every sensible setting the back leg
      is never stopped. */
  lemma MaintainNeverStops(cfg: Config, lean: real)
    requires cfg.maxLeanDown >= -3.0
    ensures StopBack !in MaintainBackLegs(cfg, lean)
  {
  }

  /** With a non-negative `maxLeanDown` there is no idle band either: every
      lean commands the back leg, retracting below `2 + maxLeanDown` and
      extending from there up. */
  lemma MaintainAlwaysMovesBackLeg(cfg: Config, lean: real)
    requires cfg.maxLeanDown >= 0.0
    ensures var r := MaintainBackLegs(cfg, lean);
            |r| == 1 && r[0].MoveBackLegs?
            && (r[0].power == cfg.retractSpeed <== lean < 2.0 + cfg.maxLeanDown)
            && (r[0].power == cfg.extendSpeed <== lean >= 2.0 + cfg.maxLeanDown)
  {
  }

  /** With the default settings a level robot, and one at exactly the
      desired lean, retract the back leg. */
  lemma MaintainAtDefaults()
    ensures MaintainBackLegs(Defaults, 0.0) == [MoveBackLegs(-0.9, 6.0)]
    ensures MaintainBackLegs(Defaults, DesiredLean) == [MoveBackLegs(-0.9, 6.0)]
    ensures MaintainBackLegs(Defaults, 7.0) == [MoveBackLegs(0.9, 2.0)]
  {
  }

  /** The five climb steps. */
  datatype Step =
    | ExtendBothLegs
    | DriveToFrontSensor
    | RetractFrontLegs
    | DriveToBackSensor
    | RetractBackLegs

  /** `ClimbUp`: the steps in the order the sequence adds them. */
  const ClimbUp: seq<Step> :=
    [ExtendBothLegs, DriveToFrontSensor, RetractFrontLegs, DriveToBackSensor, RetractBackLegs]

  /** Power the drive-to-sensor steps give both drive sides. */
  const CreepPower: real := 0.15

  /** One tick of a step: `execute`, with `lean` the lean read this tick. */
  function Execute(step: Step, cfg: Config, lean: real): (r: seq<Action>)
    ensures step == ExtendBothLegs ==> r == FullyExtendBothLegs(cfg, lean)
    ensures step == RetractFrontLegs ==>
              r == MaintainBackLegs(cfg, lean) + [MoveFrontLegs(cfg.retractSpeed, cfg.maxLeanDown)]
    ensures step == RetractBackLegs ==>
              r == [MoveBackLegs(cfg.retractSpeed, cfg.maxLeanDown), MoveFrontLegs(cfg.retractSpeed, cfg.maxLeanDown)]
    ensures step == DriveToFrontSensor || step == DriveToBackSensor ==>
              r == [SetWheelPower(cfg.wheelPower)] + MaintainBackLegs(cfg, lean) + [DriveSetPower(CreepPower, CreepPower)]
  {
    match step
    case ExtendBothLegs => FullyExtendBothLegs(cfg, lean)
    case RetractFrontLegs =>
      MaintainBackLegs(cfg, lean) + [MoveFrontLegs(cfg.retractSpeed, cfg.maxLeanDown)]
    case RetractBackLegs =>
      [MoveBackLegs(cfg.retractSpeed, cfg.maxLeanDown), MoveFrontLegs(cfg.retractSpeed, cfg.maxLeanDown)]
    case DriveToFrontSensor => DriveToSensorExecute(cfg, lean)
    case DriveToBackSensor => DriveToSensorExecute(cfg, lean)
  }

  /** `DriveToFrontSensor.execute`, inherited unchanged by `DriveToBackSensor`. */
  function DriveToSensorExecute(cfg: Config, lean: real): seq<Action>
  {
    [SetWheelPower(cfg.wheelPower)] + MaintainBackLegs(cfg, lean) + [DriveSetPower(CreepPower, CreepPower)]
  }

  /** The front-leg commands among a tick's actions. */
  function FrontPowers(actions: seq<Action>): seq<real>
    decreases |actions|
  {
    if |actions| == 0 then []
    else (if actions[0].MoveFrontLegs? then [actions[0].power] else []) + FrontPowers(actions[1..])
  }

  lemma {:induction false} FrontPowersAppend(a: seq<Action>, b: seq<Action>)
    ensures FrontPowers(a + b) == FrontPowers(a) + FrontPowers(b)
    decreases |a|
  {
    if |a| == 0 {
      assert a + b == b;
    } else {
      assert (a + b)[0] == a[0];
      assert (a + b)[1..] == a[1..] + b;
      FrontPowersAppend(a[1..], b);
    }
  }

  /** What each step does to the front leg in one tick: extend (shaped) in
      ExtendBothLegs, retract at `retractSpeed` in both retract steps, and
      nothing while driving to a sensor. No step ever drives the front leg
      from the lean-dependent back-leg rule. */
  lemma {:induction false} FrontLegPerStep(step: Step, cfg: Config, lean: real)
    ensures var f := FrontPowers(Execute(step, cfg, lean));
            match step
            case ExtendBothLegs => f == [FullyExtendBothLegs(cfg, lean)[0].power]
            case RetractFrontLegs => f == [cfg.retractSpeed]
            case RetractBackLegs => f == [cfg.retractSpeed]
            case DriveToFrontSensor => f == []
            case DriveToBackSensor => f == []
  {
    var m := MaintainBackLegs(cfg, lean);
    assert FrontPowers(m) == [] by {
      if |m| == 1 { assert m[1..] == []; }
    }
    match step
    case ExtendBothLegs =>
      var r := FullyExtendBothLegs(cfg, lean);
      assert r[1..][1..] == [];
      assert FrontPowers(r[1..]) == [];
    case RetractFrontLegs =>
      FrontPowersAppend(m, [MoveFrontLegs(cfg.retractSpeed, cfg.maxLeanDown)]);
      assert [MoveFrontLegs(cfg.retractSpeed, cfg.maxLeanDown)][1..] == [];
    case RetractBackLegs =>
      var r := Execute(step, cfg, lean);
      assert r[1..][1..] == [];
    case DriveToFrontSensor =>
      FrontPowersAppend([SetWheelPower(cfg.wheelPower)] + m, [DriveSetPower(CreepPower, CreepPower)]);
      FrontPowersAppend([SetWheelPower(cfg.wheelPower)], m);
      assert [SetWheelPower(cfg.wheelPower)][1..] == [];
      assert [DriveSetPower(CreepPower, CreepPower)][1..] == [];
    case DriveToBackSensor =>
      FrontPowersAppend([SetWheelPower(cfg.wheelPower)] + m, [DriveSetPower(CreepPower, CreepPower)]);
      FrontPowersAppend([SetWheelPower(cfg.wheelPower)], m);
      assert [SetWheelPower(cfg.wheelPower)][1..] == [];
      assert [DriveSetPower(CreepPower, CreepPower)][1..] == [];
  }

  /** RetractBackLegs ignores the lean; DriveToBackSensor ticks exactly as
      DriveToFrontSensor does. */
  lemma StepsSharingBehaviour(cfg: Config, lean1: real, lean2: real)
    ensures Execute(RetractBackLegs, cfg, lean1) == Execute(RetractBackLegs, cfg, lean2)
    ensures Execute(DriveToBackSensor, cfg, lean1) == Execute(DriveToFrontSensor, cfg, lean1)
  {
  }

  /** Answers of the climber queries the completion predicates call. */
  datatype ClimbStatus = ClimbStatus(
    fullyExtendedBoth: bool,
    fullyRetractedFront: bool,
    fullyRetractedBack: bool,
    frontOverGround: bool,
    backOverGround: bool)

  /** `isFinished` of each step. */
  function IsFinished(step: Step, st: ClimbStatus): (r: bool)
    ensures step == ExtendBothLegs ==> (r <==> st.fullyExtendedBoth)
    ensures step == DriveToFrontSensor ==> (r <==> st.frontOverGround)
    ensures step == RetractFrontLegs ==> (r <==> st.fullyRetractedFront || !st.frontOverGround)
    ensures step == DriveToBackSensor ==> (r <==> st.backOverGround)
    ensures step == RetractBackLegs ==> (r <==> st.fullyRetractedBack || !st.backOverGround)
  {
    match step
    case ExtendBothLegs => st.fullyExtendedBoth
    case DriveToFrontSensor => st.frontOverGround
    case RetractFrontLegs => st.fullyRetractedFront || !st.frontOverGround
    case DriveToBackSensor => st.backOverGround
    case RetractBackLegs => st.fullyRetractedBack || !st.backOverGround
  }

  /** A retract step also ends when its leg's floor sensor loses the floor,
      even with the leg not yet retracted; the drive steps end exactly when
      the sensor finds it. So a front floor sensor that drops out ends
      RetractFrontLegs but can never end DriveToFrontSensor. */
  lemma FloorLossEndsRetractNotDrive(st: ClimbStatus)
    requires !st.frontOverGround
    ensures IsFinished(RetractFrontLegs, st) && !IsFinished(DriveToFrontSensor, st)
  {
  }

  /** `LiftCommand.initialize`: reload the configuration. */
  function Initialize(s: Dashboard.Store, cfg: Config): (res: (Config, Dashboard.Store))
    ensures res == Configure(s, cfg)
  {
    Configure(s, cfg)
  }

  /** `LiftCommand.end`, also reached from `interrupted`: every step stops
      both leg motors and the wheels, whatever the step and state. */
  function End(step: Step, c: Climber.Climber): (c': Climber.Climber)
    ensures c'.front.motorPower == 0.0 && c'.back.motorPower == 0.0 && c'.wheelPower == 0.0
    ensures c'.front.extended == c.front.extended && c'.back.extended == c.back.extended
    ensures c'.front.retracted == c.front.retracted && c'.back.retracted == c.back.retracted
    ensures c'.front.floor == c.front.floor && c'.back.floor == c.back.floor
  {
    Climber.StopAll(c)
  }

  /** Ending a step and then any other step leaves the climber as ending
      the first alone did: once a step ends, nothing is left running. */
  lemma EndSettles(s1: Step, s2: Step, c: Climber.Climber)
    ensures End(s2, End(s1, c)) == End(s1, c)
  {
    Climber.StopAllIdempotent(c);
  }

  /** Python's error when `None` is compared with a number. */
  datatype PyError = TypeError

  /** What one tick of a step amounts to: the commands issued before it
      stopped, and the error that stopped it, if any. */
  datatype Outcome = Outcome(issued: seq<Action>, error: Option<PyError>)

  /** `LiftCommand.getLean` as written: it calls the climber's `getLean` and
      drops the value, so every caller receives `None`. */
  function GetLeanAsWritten(climberLean: real): (r: Option<real>)
    ensures r.None?
  {
    None
  }

  /** `LiftCommand.getLean` as evidently intended: the climber's lean. */
  function GetLean(climberLean: real): (r: Option<real>)
    ensures r.Some? && r.value == climberLean
  {
    Some(climberLean)
  }

  /** A step's tick with the lean obtained through a getter. A step that
      compares the lean with a number (in `isLeaningForward` or
      `maintainBackLegs`) stops with `TypeError` on a missing lean, after
      whatever it issued first. */
  function ExecuteWith(step: Step, cfg: Config, lean: Option<real>): (o: Outcome)
    ensures lean.Some? ==> o == Outcome(Execute(step, cfg, lean.value), None)
    ensures lean.None? && step == DriveToFrontSensor ==> o == Outcome([SetWheelPower(cfg.wheelPower)], Some(TypeError))
  {
    match lean
    case Some(l) => Outcome(Execute(step, cfg, l), None)
    case None =>
      match step
      case RetractBackLegs => Outcome(Execute(step, cfg, 0.0), None)
      case ExtendBothLegs => Outcome([], Some(TypeError))
      case RetractFrontLegs => Outcome([], Some(TypeError))
      case DriveToFrontSensor => Outcome([SetWheelPower(cfg.wheelPower)], Some(TypeError))
      case DriveToBackSensor => Outcome([SetWheelPower(cfg.wheelPower)], Some(TypeError))
  }

  /** As written, every step that looks at the lean fails on its first
      tick, so ClimbUp cannot get past its first step; only RetractBackLegs
      runs. */
  lemma LeanStepsFailAsWritten(step: Step, cfg: Config, climberLean: real)
    ensures var o := ExecuteWith(step, cfg, GetLeanAsWritten(climberLean));
            (o.error.Some? <==> step != RetractBackLegs)
            && FrontPowers(o.issued) == (if step == RetractBackLegs then [cfg.retractSpeed] else [])
  {
    var o := ExecuteWith(step, cfg, GetLeanAsWritten(climberLean));
    if step == RetractBackLegs {
      FrontLegPerStep(step, cfg, 0.0);
    } else if step == DriveToFrontSensor || step == DriveToBackSensor {
      assert o.issued[1..] == [];
    }
  }

  /** With the lean returned, every step completes its tick without error and
      issues exactly the commands of `Execute` for the climber's lean. */
  lemma LeanStepsRunCorrected(step: Step, cfg: Config, climberLean: real)
    ensures ExecuteWith(step, cfg, GetLean(climberLean)) == Outcome(Execute(step, cfg, climberLean), None)
  {
  }

  /** ClimbUp holds each step exactly once, in this order. */
  lemma ClimbUpOrder()
    ensures |ClimbUp| == 5
    ensures forall i, j :: 0 <= i < j < |ClimbUp| ==> ClimbUp[i] != ClimbUp[j]
    ensures forall s: Step :: s in ClimbUp
    ensures ClimbUp[0] == ExtendBothLegs && ClimbUp[4] == RetractBackLegs
  {
    forall s: Step ensures s in ClimbUp {
      match s
      case ExtendBothLegs => assert ClimbUp[0] == s;
      case DriveToFrontSensor => assert ClimbUp[1] == s;
      case RetractFrontLegs => assert ClimbUp[2] == s;
      case DriveToBackSensor => assert ClimbUp[3] == s;
      case RetractBackLegs => assert ClimbUp[4] == s;
    }
  }
}

=== FILE: load_test.dfy ===
/** The CPU load test (`LoadTest`): each tick it times a busy loop of
    `loopCnts` iterations, doubling the count after a fast run (at most
    0.1 s) and halving it after a slow one, and ends on the first slow run
    that follows a fast one, reporting the loop rate.

    The measured time of a run is an input: the busy loop and the timer are
    not modelled, and neither are the statistics the busy loop accumulates,
    which the command never reads. */
module LoadTest {
  import Dashboard

  /** Command state. The loop count never goes negative (it starts at 1 or
      8096 and is only doubled or halved), so it is a `nat` here. */
  datatype LoadTest = LoadTest(previousBelow: bool, loopCnts: nat, runSecs: real)

  /** Runs longer than this are slow. */
  const SlowSecs: real := 0.1

  predicate Slow(secs: real) { secs > SlowSecs }

  /** The constructor. */
  function New(): (lt: LoadTest)
    ensures !lt.previousBelow && lt.loopCnts == 8096 && lt.runSecs == 0.0
  {
    LoadTest(false, 8096, 0.0)
  }

  /** `initialize`: start again from one loop. */
  function Initialize(lt: LoadTest): (lt': LoadTest)
    ensures !lt'.previousBelow && lt'.loopCnts == 1 && lt'.runSecs == 0.0
  {
    LoadTest(false, 1, 0.0)
  }

  const LoopsLabel := "CPU Test Loops"
  const SecsLabel := "CPU Test Secs"
  const HzLabel := "CPU Test Hz"

  /** `execute`: publish the loop count about to run, then record how long
      the run took. */
  function Execute(lt: LoadTest, s: Dashboard.Store, measuredSecs: real): (res: (LoadTest, Dashboard.Store))
    ensures res.0 == lt.(runSecs := measuredSecs)
    ensures Dashboard.GetNumber(res.1, LoopsLabel, 0.0) == lt.loopCnts as real
  {
    (lt.(runSecs := measuredSecs), Dashboard.PutNumber(s, LoopsLabel, lt.loopCnts as real))
  }

  /** `isFinished`: after a slow run, finished if the previous run was
      fast, otherwise halve the count (truncating); after a fast run,
      double it. */
  function IsFinished(lt: LoadTest): (res: (bool, LoadTest))
    ensures res.0 <==> Slow(lt.runSecs) && lt.previousBelow
    ensures res.0 ==> res.1 == lt
    ensures !res.0 ==> res.1.previousBelow == !Slow(lt.runSecs)
    ensures !res.0 && Slow(lt.runSecs) ==> 2 * res.1.loopCnts <= lt.loopCnts <= 2 * res.1.loopCnts + 1
    ensures !Slow(lt.runSecs) ==> res.1.loopCnts == 2 * lt.loopCnts
    ensures res.1.runSecs == lt.runSecs
  {
    if Slow(lt.runSecs) then
      if lt.previousBelow then (true, lt)
      else (false, lt.(previousBelow := false, loopCnts := lt.loopCnts / 2))
    else
      (false, lt.(previousBelow := true, loopCnts := lt.loopCnts * 2))
  }

  /** `end`: publish the last run's time and the loop rate, 0 when no time
      was measured. */
  function End(lt: LoadTest, s: Dashboard.Store): (res: (real, Dashboard.Store))
    ensures lt.runSecs > 0.0 ==> res.0 * lt.runSecs == lt.loopCnts as real
    ensures lt.runSecs <= 0.0 ==> res.0 == 0.0
    ensures res.0 >= 0.0
    ensures Dashboard.GetNumber(res.1, HzLabel, 0.0) == res.0
    ensures Dashboard.GetNumber(res.1, SecsLabel, 0.0) == lt.runSecs
  {
    var hz := if lt.runSecs > 0.0 then lt.loopCnts as real / lt.runSecs else 0.0;
    var s1 := Dashboard.PutNumber(s, SecsLabel, lt.runSecs);
    (hz, Dashboard.PutNumber(s1, HzLabel, hz))
  }

  /** One scheduler tick: `execute` with the measured time, then `isFinished`. */
  function Tick(lt: LoadTest, secs: real): (bool, LoadTest)
  {
    IsFinished(lt.(runSecs := secs))
  }

  /** Ticks over a series of measured times until the command finishes:
      the index of the finishing tick, if any, and the final state. */
  function Run(lt: LoadTest, samples: seq<real>): (Finish, LoadTest)
    decreases |samples|
  {
    if |samples| == 0 then (NotYet, lt)
    else
      var (done, lt1) := Tick(lt, samples[0]);
      if done then (At(0), lt1)
      else
        var (f, lt2) := Run(lt1, samples[1..]);
        (if f.At? then At(f.index + 1) else NotYet, lt2)
  }

  /** Where a run of the command finished. */
  datatype Finish = NotYet | At(index: nat)

  /** Tick `i` is a crossing: a slow run right after a fast one (the run
      before the first sample was fast exactly when `prevFast`). */
  predicate Crossing(prevFast: bool, samples: seq<real>, i: int)
    requires 0 <= i < |samples|
  {
    Slow(samples[i]) && (if i == 0 then prevFast else !Slow(samples[i - 1]))
  }

  /** The command finishes exactly at the first crossing, and runs through
      every sample when there is none. */
  lemma {:induction false} FinishesAtFirstCrossing(lt: LoadTest, samples: seq<real>)
    ensures var (f, _) := Run(lt, samples);
            (f.At? ==> f.index < |samples| && Crossing(lt.previousBelow, samples, f.index)
                       && forall j :: 0 <= j < f.index ==> !Crossing(lt.previousBelow, samples, j))
            && (f.NotYet? ==> forall j :: 0 <= j < |samples| ==> !Crossing(lt.previousBelow, samples, j))
    decreases |samples|
  {
    if |samples| > 0 {
      var (done, lt1) := Tick(lt, samples[0]);
      if !done {
        var tail := samples[1..];
        FinishesAtFirstCrossing(lt1, tail);
        assert lt1.previousBelow == !Slow(samples[0]);
        forall j | 1 <= j < |samples|
          ensures Crossing(lt.previousBelow, samples, j) == Crossing(lt1.previousBelow, tail, j - 1)
        {
          assert samples[j] == tail[j - 1];
          if j > 1 { assert samples[j - 1] == tail[j - 2]; }
        }
      }
    }
  }

  /** While the command has not finished, `previousBelow` says whether the
      last run was fast. */
  lemma {:induction false} PreviousBelowIsLastRunFast(lt: LoadTest, samples: seq<real>)
    requires |samples| > 0
    requires Run(lt, samples).0.NotYet?
    ensures Run(lt, samples).1.previousBelow == !Slow(samples[|samples| - 1])
    decreases |samples|
  {
    var (done, lt1) := Tick(lt, samples[0]);
    if |samples| > 1 {
      PreviousBelowIsLastRunFast(lt1, samples[1..]);
    }
  }

  function Pow2(k: nat): (r: nat)
    ensures r >= 1
  {
    if k == 0 then 1 else 2 * Pow2(k - 1)
  }

  /** From any state, `k` fast runs multiply the loop count by `2^k` and
      never finish. */
  lemma {:induction false} FastRunsDouble(lt: LoadTest, samples: seq<real>)
    requires forall i :: 0 <= i < |samples| ==> !Slow(samples[i])
    ensures Run(lt, samples).0.NotYet?
    ensures Run(lt, samples).1.loopCnts == lt.loopCnts * Pow2(|samples|)
    decreases |samples|
  {
    if |samples| > 0 {
      var (done, lt1) := Tick(lt, samples[0]);
      FastRunsDouble(lt1, samples[1..]);
      assert lt1.loopCnts == 2 * lt.loopCnts;
      assert lt1.loopCnts * Pow2(|samples| - 1) == lt.loopCnts * Pow2(|samples|);
    }
  }

  /** Starting from `initialize`, `k` fast runs give exactly `2^k` loops. */
  lemma FastRunsFromStart(lt: LoadTest, samples: seq<real>)
    requires forall i :: 0 <= i < |samples| ==> !Slow(samples[i])
    ensures Run(Initialize(lt), samples).1.loopCnts == Pow2(|samples|)
  {
    FastRunsDouble(Initialize(lt), samples);
  }

  /** A zero loop count is never left again while the command runs. */
  lemma {:induction false} ZeroLoopsStayZero(lt: LoadTest, samples: seq<real>)
    requires lt.loopCnts == 0
    ensures Run(lt, samples).1.loopCnts == 0
    decreases |samples|
  {
    if |samples| > 0 {
      var (done, lt1) := Tick(lt, samples[0]);
      if !done {
        ZeroLoopsStayZero(lt1, samples[1..]);
      }
    }
  }

  /** The finishing tick leaves the loop count of the slow run it measured,
      so the rate `end` reports is that run's loops per second. */
  lemma FinishKeepsMeasuredRun(lt: LoadTest, secs: real)
    requires Tick(lt, secs).0
    ensures Tick(lt, secs).1.loopCnts == lt.loopCnts && Tick(lt, secs).1.runSecs == secs
    ensures End(Tick(lt, secs).1, Dashboard.Empty).0 * secs == lt.loopCnts as real
  {
  }
}

=== FILE: minimal_robot.dfy ===
/** The minimal command-based robot (minimal-py/robot.py): a two-motor
    drive, the fixed-power `DrivePower` command, and `DriveArcade`, which
    reshapes each game-pad axis with `tweak` before arcade driving.

    `tweak` starts from WPILib's `applyDeadband` with a 0.15 deadband,
    which is not part of this model: the deadbanded value is the input of
    `Tweak`. */
module MinimalRobot {
  import opened Common

  /** Power last given to each side of a minimal drive. */
  datatype Drive = Drive(left: real, right: real)

  /** `Drive.setPower`. */
  function SetPower(d: Drive, left: real, right: real): (d': Drive)
    ensures d'.left == left && d'.right == right
  {
    Drive(left, right)
  }

  /** `DrivePower`: a command holding two fixed powers. */
  datatype DrivePower = DrivePower(leftPower: real, rightPower: real)

  /** `DrivePower.execute`: the drive runs at the held powers. */
  function DrivePowerExecute(c: DrivePower, d: Drive): (d': Drive)
    ensures d'.left == c.leftPower && d'.right == c.rightPower
  {
    SetPower(d, c.leftPower, c.rightPower)
  }

  /** `DrivePower.interrupted`, also reached from `end`: the drive stops. */
  function DrivePowerEnd(c: DrivePower, d: Drive): (d': Drive)
    ensures d'.left == 0.0 && d'.right == 0.0
  {
    SetPower(d, 0.0, 0.0)
  }

  /** The dashboard's per-subsystem "Forward" and "Backward" commands. */
  const Forward := DrivePower(0.2, 0.2)
  const Backward := DrivePower(-0.2, -0.2)

  /** The two dashboard commands drive opposite ways at equal power, and
      either one, once ended, leaves the drive stopped whatever it was doing. */
  lemma ForwardBackwardOpposite(d: Drive)
    ensures DrivePowerExecute(Backward, d).left == -DrivePowerExecute(Forward, d).left
    ensures DrivePowerExecute(Backward, d).right == -DrivePowerExecute(Forward, d).right
    ensures DrivePowerEnd(Forward, DrivePowerExecute(Forward, d)) == DrivePowerEnd(Backward, d)
  {
  }

  /** Smallest output magnitude outside the deadband. */
  const Nominal: real := 3.0 / 8.0

  /** `DriveArcade.tweak(val, scale)` on the deadbanded value `d`: zero
      stays zero; otherwise the value is scaled by `scale * (1 - nominal)`,
      squared with its sign kept, and pushed out by `nominal`. */
  function Tweak(d: real, scale: real): (r: real)
    ensures d == 0.0 ==> r == 0.0
    ensures d != 0.0 ==> r >= Nominal || r <= -Nominal
  {
    if d == 0.0 then d else SignedSquare(d * scale * (1.0 - Nominal))
  }

  /** The square of `t` with the sign of `t`, pushed away from zero by
      `nominal`. */
  function SignedSquare(t: real): real
  {
    if t > 0.0 then t * t + Nominal else t * -t - Nominal
  }

  lemma SignedSquareBeyond(t: real)
    ensures t > 0.0 ==> SignedSquare(t) > Nominal
    ensures t < 0.0 ==> SignedSquare(t) < -Nominal
  {
    if t != 0.0 {
      SquarePositive(t, t * t);
    }
    if t < 0.0 {
      assert t * -t == -(t * t);
    }
  }

  /** A non-zero square is positive (stated with the square as a separate
      value, which keeps the solver's reasoning linear at the call site). */
  lemma SquarePositive(t: real, sq: real)
    requires t != 0.0 && sq == t * t
    ensures sq > 0.0
  {
    if t > 0.0 {
      ProductPositive(t, t, sq);
    } else {
      ProductPositive(-t, -t, sq);
    }
  }

  lemma ProductPositive(a: real, b: real, p: real)
    requires a > 0.0 && b > 0.0 && p == a * b
    ensures p > 0.0
  {
  }

  /** With a positive scale the output has the sign of the input and is at
      least `nominal` in magnitude: there is a jump from 0 to 3/8 at the
      edge of the deadband. */
  lemma TweakKeepsSign(d: real, scale: real)
    requires scale > 0.0
    ensures d > 0.0 ==> Tweak(d, scale) > Nominal
    ensures d < 0.0 ==> Tweak(d, scale) < -Nominal
  {
    var k := scale * (1.0 - Nominal);
    MulPos(scale, 1.0 - Nominal);
    var t := d * scale * (1.0 - Nominal);
    assert t == d * k;
    if d > 0.0 {
      MulPos(d, k);
    } else if d < 0.0 {
      MulPos(-d, k);
    }
    SignedSquareBeyond(t);
  }

  lemma MulPos(a: real, b: real)
    requires a > 0.0 && b > 0.0
    ensures a * b > 0.0
  {
  }

  /** Reversing the stick reverses the output, for any non-zero scale. */
  lemma TweakOdd(d: real, scale: real)
    requires scale != 0.0
    ensures Tweak(-d, scale) == -Tweak(d, scale)
  {
    if d != 0.0 {
      var t := d * scale * (1.0 - Nominal);
      assert (-d) * scale * (1.0 - Nominal) == -t;
      assert t != 0.0 by {
        assert d * scale != 0.0;
      }
    }
  }

  /** A zero scale does not silence the stick: every input outside the
      deadband gives `-nominal`, whatever its direction. */
  lemma TweakZeroScale(d: real)
    requires d != 0.0
    ensures Tweak(d, 0.0) == -Nominal
  {
  }

  /** With a positive scale, `tweak` is strictly increasing: more stick
      never gives less output. */
  lemma TweakIncreasing(d1: real, d2: real, scale: real)
    requires scale > 0.0 && d1 < d2
    ensures Tweak(d1, scale) < Tweak(d2, scale)
  {
    TweakKeepsSign(d1, scale);
    TweakKeepsSign(d2, scale);
    if d1 != 0.0 && d2 != 0.0 {
      var k := scale * (1.0 - Nominal);
      MulPos(scale, 1.0 - Nominal);
      MulStrict(d1, d2, k);
      assert d1 * scale * (1.0 - Nominal) == d1 * k;
      assert d2 * scale * (1.0 - Nominal) == d2 * k;
      SignedSquareIncreasing(d1 * k, d2 * k);
    }
  }

  /** `SignedSquare` is strictly increasing over all reals. */
  lemma SignedSquareIncreasing(t1: real, t2: real)
    requires t1 < t2
    ensures SignedSquare(t1) < SignedSquare(t2)
  {
    SignedSquareBeyond(t1);
    SignedSquareBeyond(t2);
    if 0.0 < t1 {
      SquareIncreasing(t1, t2);
    } else if t2 < 0.0 {
      SquareIncreasing(-t2, -t1);
      assert t1 * -t1 == -((-t1) * (-t1));
      assert t2 * -t2 == -((-t2) * (-t2));
    }
  }

  lemma MulStrict(a: real, b: real, k: real)
    requires a < b && k > 0.0
    ensures a * k < b * k
  {
    ProductPositive(b - a, k, (b - a) * k);
  }

  lemma SquareIncreasing(a: real, b: real)
    requires 0.0 < a < b
    ensures a * a < b * b
  {
    ProductPositive(b - a, b + a, (b - a) * (b + a));
    assert b * b - a * a == (b - a) * (b + a);
  }

  /** For a stick value in [-1, 1] and a scale in (0, 1], the output stays
      within 49/64 in magnitude: full stick does not reach full power. */
  lemma TweakBounded(d: real, scale: real)
    requires -1.0 <= d <= 1.0 && 0.0 < scale <= 1.0
    ensures -49.0 / 64.0 <= Tweak(d, scale) <= 49.0 / 64.0
    ensures Tweak(1.0, 1.0) == 49.0 / 64.0
  {
    if d != 0.0 {
      var k := scale * (1.0 - Nominal);
      var t := d * scale * (1.0 - Nominal);
      assert t == d * k;
      assert 0.0 < k <= 5.0 / 8.0;
      var a := if t >= 0.0 then t else -t;
      assert a <= 5.0 / 8.0 by {
        var ad := if d >= 0.0 then d else -d;
        assert a == ad * k;
        MulLe(ad, 1.0, k, 5.0 / 8.0);
      }
      assert a * a <= 25.0 / 64.0 by { MulLe(a, 5.0 / 8.0, a, 5.0 / 8.0); }
      assert t * t == a * a;
    }
  }

  lemma MulLe(a: real, b: real, c: real, e: real)
    requires 0.0 <= a <= b && 0.0 <= c <= e
    ensures a * c <= b * e
  {
    assert a * c <= b * c by { assert (b - a) * c >= 0.0; }
    assert b * c <= b * e by { assert b * (e - c) >= 0.0; }
  }

  /** The arcade request of one tick. */
  datatype Arcade = Arcade(throttle: real, rotation: real, squared: bool)

  /** `DriveArcade.execute`: `forward` is the deadbanded negated left-stick
      Y and `turn` the deadbanded right-stick X (the values `tweak` works on
      after `applyDeadband`); throttle is tweaked at full scale, rotation at
      half scale, and WPILib is told not to square them again. */
  function DriveArcadeExecute(forward: real, turn: real): (a: Arcade)
    ensures !a.squared
    ensures a.throttle == Tweak(forward, 1.0) && a.rotation == Tweak(turn, 0.5)
  {
    Arcade(Tweak(forward, 1.0), Tweak(turn, 0.5), false)
  }

  /** Pushing the left stick forward drives forward at no less than 3/8 and
      pulling it back drives backward likewise; a centred stick asks for
      nothing; turning is signed the same way, and a full right turn reaches
      only 121/256. */
  lemma ArcadeDirections(forward: real, turn: real)
    ensures forward > 0.0 ==> DriveArcadeExecute(forward, turn).throttle > Nominal
    ensures forward < 0.0 ==> DriveArcadeExecute(forward, turn).throttle < -Nominal
    ensures forward == 0.0 ==> DriveArcadeExecute(forward, turn).throttle == 0.0
    ensures turn > 0.0 ==> DriveArcadeExecute(forward, turn).rotation > Nominal
    ensures turn < 0.0 ==> DriveArcadeExecute(forward, turn).rotation < -Nominal
    ensures DriveArcadeExecute(forward, 1.0).rotation == 121.0 / 256.0
  {
    TweakKeepsSign(forward, 1.0);
    TweakKeepsSign(turn, 0.5);
  }
}

=== FILE: stats.dfy ===
/** Running statistics (`Stats`: count, sum, smallest and largest value,
    mean) and the `Performance` command that feeds it loop times. */
module Stats {
  import Dashboard

  /** The four fields `Stats` keeps. */
  datatype Stats = Stats(cnt: nat, sum: real, min: real, max: real)

  /** `zero`: nothing seen yet. */
  function Zero(): (st: Stats)
    ensures st.cnt == 0 && st.sum == 0.0 && st.min == 0.0 && st.max == 0.0
  {
    Stats(0, 0.0, 0.0, 0.0)
  }

  /** `add(val)`: the first value sets both extremes; later values move at
      most one of them. */
  function Add(st: Stats, val: real): (st': Stats)
    ensures st'.cnt == st.cnt + 1 && st'.sum == st.sum + val
    ensures st.cnt == 0 ==> st'.min == val && st'.max == val
    ensures st.cnt > 0 && st.min <= st.max ==>
              st'.min == (if val < st.min then val else st.min)
              && st'.max == (if val > st.max then val else st.max)
  {
    var st1 :=
      if st.cnt == 0 then st.(min := val, max := val)
      else if val > st.max then st.(max := val)
      else if val < st.min then st.(min := val)
      else st;
    st1.(cnt := st1.cnt + 1, sum := st1.sum + val)
  }

  /** `getAvg`: the mean, or 0 before any value. */
  function GetAvg(st: Stats): (r: real)
    ensures st.cnt > 0 ==> r * st.cnt as real == st.sum
    ensures st.cnt == 0 ==> r == 0.0
  {
    if st.cnt > 0 then st.sum / st.cnt as real else 0.0
  }

  /** Statistics of a sequence of values added in order from `zero`. */
  function OfValues(vals: seq<real>): Stats
    decreases |vals|
  {
    if |vals| == 0 then Zero() else Add(OfValues(vals[..|vals| - 1]), vals[|vals| - 1])
  }

  /** Sum of a sequence. */
  function Sum(vals: seq<real>): real
    decreases |vals|
  {
    if |vals| == 0 then 0.0 else Sum(vals[..|vals| - 1]) + vals[|vals| - 1]
  }

  /** After adding a sequence of values the count and sum are those of the
      sequence, and the extremes are values of the sequence bounding all of
      it; before any value all fields are zero. */
  lemma {:induction false} OfValuesSummarises(vals: seq<real>)
    ensures var st := OfValues(vals);
            st.cnt == |vals| && st.sum == Sum(vals)
            && (|vals| == 0 ==> st == Zero())
            && (|vals| > 0 ==>
                  st.min in vals && st.max in vals
                  && forall i :: 0 <= i < |vals| ==> st.min <= vals[i] <= st.max)
    decreases |vals|
  {
    if |vals| > 0 {
      var init := vals[..|vals| - 1];
      var last := vals[|vals| - 1];
      OfValuesSummarises(init);
      var st0 := OfValues(init);
      var st := Add(st0, last);
      assert vals == init + [last];
      if |init| > 0 {
        assert st0.min <= st0.max by { assert st0.min <= init[0] <= st0.max; }
        forall i | 0 <= i < |vals|
          ensures st.min <= vals[i] <= st.max
        {
          if i < |init| { assert vals[i] == init[i]; }
        }
      }
    }
  }

  /** A sum of values each between `lo` and `hi` lies between `n*lo` and `n*hi`. */
  lemma {:induction false} SumBounds(vals: seq<real>, lo: real, hi: real)
    requires forall i :: 0 <= i < |vals| ==> lo <= vals[i] <= hi
    ensures |vals| as real * lo <= Sum(vals) <= |vals| as real * hi
    decreases |vals|
  {
    if |vals| > 0 {
      var init := vals[..|vals| - 1];
      assert forall i :: 0 <= i < |init| ==> init[i] == vals[i];
      SumBounds(init, lo, hi);
    }
  }

  /** The mean of the values added lies between the smallest and largest. */
  lemma AvgBetweenExtremes(vals: seq<real>)
    requires |vals| > 0
    ensures var st := OfValues(vals);
            st.min <= GetAvg(st) <= st.max
  {
    OfValuesSummarises(vals);
    var st := OfValues(vals);
    SumBounds(vals, st.min, st.max);
    MeanBetween(st.sum, |vals| as real, st.min, st.max);
  }

  /** A total between `n*lo` and `n*hi` has its mean between `lo` and `hi`. */
  lemma MeanBetween(sum: real, n: real, lo: real, hi: real)
    requires n > 0.0 && n * lo <= sum <= n * hi
    ensures lo <= sum / n <= hi
  {
    var avg := sum / n;
    assert avg * n == sum;
    if avg < lo {
      MulStrict(avg, lo, n);
    }
    if avg > hi {
      MulStrict(hi, avg, n);
    }
  }

  lemma MulStrict(a: real, b: real, n: real)
    requires a < b && n > 0.0
    ensures a * n < b * n
  {
    assert (b - a) * n > 0.0;
  }

  /** One value added after `zero` gives the statistics of that value alone:
      count one, and sum, smallest and largest all equal to it. */
  lemma ZeroForgets(v: real)
    ensures Add(Zero(), v) == OfValues([v])
    ensures Add(Zero(), v) == Stats(1, v, v, v)
  {
    assert [v][..0] == [];
  }

  /** The loop-time monitor: the last time in milliseconds and statistics
      of all times since it started. */
  datatype Performance = Performance(last: real, stats: Stats)

  /** `updateRunTime(timeSecs)`: record a loop time given in seconds. */
  function UpdateRunTime(p: Performance, timeSecs: real): (p': Performance)
    ensures p'.last == timeSecs * 1000.0
    ensures p'.stats == Add(p.stats, timeSecs * 1000.0)
    ensures p'.stats.cnt == p.stats.cnt + 1
  {
    var ms := timeSecs * 1000.0;
    Performance(ms, Add(p.stats, ms))
  }

  /** `initialize`: statistics restart with each command start. */
  function InitializePerformance(p: Performance): (p': Performance)
    ensures p'.last == 0.0 && p'.stats == Zero()
  {
    Performance(0.0, Zero())
  }

  /** Feeds a series of loop times (seconds) to the monitor. */
  function UpdateAll(p: Performance, secs: seq<real>): Performance
    decreases |secs|
  {
    if |secs| == 0 then p else UpdateRunTime(UpdateAll(p, secs[..|secs| - 1]), secs[|secs| - 1])
  }

  /** Times in seconds scaled to milliseconds. */
  function ToMillis(secs: seq<real>): (ms: seq<real>)
    ensures |ms| == |secs|
    ensures forall i :: 0 <= i < |secs| ==> ms[i] == secs[i] * 1000.0
    decreases |secs|
  {
    if |secs| == 0 then [] else ToMillis(secs[..|secs| - 1]) + [secs[|secs| - 1] * 1000.0]
  }

  /** After `initialize` and a series of updates the monitor holds the
      statistics of exactly those times in milliseconds, and the last one. */
  lemma {:induction false} MonitorTracksTimes(p: Performance, secs: seq<real>)
    ensures UpdateAll(InitializePerformance(p), secs).stats == OfValues(ToMillis(secs))
    ensures |secs| > 0 ==> UpdateAll(InitializePerformance(p), secs).last == secs[|secs| - 1] * 1000.0
    decreases |secs|
  {
    if |secs| > 0 {
      var init := secs[..|secs| - 1];
      MonitorTracksTimes(p, init);
      ToMillisPrefix(secs);
    }
  }

  lemma ToMillisPrefix(secs: seq<real>)
    requires |secs| > 0
    ensures ToMillis(secs) == ToMillis(secs[..|secs| - 1]) + [secs[|secs| - 1] * 1000.0]
  {
  }

  const RunLastLabel := "Run Last"
  const RunAvgLabel := "Run Avg"
  const RunMaxLabel := "Run Max"

  /** `execute` of the monitor: publish the last time, the mean and the maximum. */
  function ExecutePerformance(p: Performance, s: Dashboard.Store): (s': Dashboard.Store)
    ensures s'.numbers.Keys == s.numbers.Keys + {RunLastLabel, RunAvgLabel, RunMaxLabel}
    ensures s'.numbers[RunMaxLabel] == p.stats.max
    ensures p.stats.cnt > 0 ==> s'.numbers[RunAvgLabel] * p.stats.cnt as real == p.stats.sum
    ensures p.stats.cnt == 0 ==> s'.numbers[RunAvgLabel] == 0.0
    ensures s'.numbers[RunLastLabel] == p.last
    ensures forall k :: k in s.numbers && k != RunLastLabel && k != RunAvgLabel && k != RunMaxLabel ==>
              s'.numbers[k] == s.numbers[k]
    ensures s'.booleans == s.booleans
  {
    var s1 := Dashboard.PutNumber(s, RunLastLabel, p.last);
    var s2 := Dashboard.PutNumber(s1, RunAvgLabel, GetAvg(p.stats));
    Dashboard.PutNumber(s2, RunMaxLabel, p.stats.max)
  }
}

=== FILE: tick_timed.dfy ===
/** The tick-timed auton drive test (`DriveTickTimed`, in the Python, Java
    and C++ robots alike): ramp both drive sides up over `rampTicks`
    executions, cruise for `cruiseTicks`, ramp down over `rampTicks`, then
    stop. One execution is one scheduler tick. */
module TickTimed {
  import opened Common
  import Dashboard
  import DriveSubsystem

  datatype Mode = RampUp | Cruise | RampDown | Done

  /** Command state. `ticks` counts executions in the current mode. */
  datatype TickTimed = TickTimed(
    mode: Mode,
    ticks: int,
    rampTicks: int,
    cruiseTicks: int,
    leftGain: real,
    rightGain: real,
    leftPower: real,
    rightPower: real)

  /** What one execution asks of the drive. */
  datatype DriveCmd = SetPower(left: real, right: real) | Stop

  /** Python's error for a zero ramp length. */
  datatype TickError = ZeroDivisionError

  const DefaultPower: real := 0.4
  const DefaultRampTicks: int := 20
  const DefaultCruiseTicks: int := 40

  const FixedLeftLabel := "Fixed Left"
  const FixedRightLabel := "Fixed Right"
  const RampTicksLabel := "Ramp Ticks"
  const CruiseTicksLabel := "Cruise Ticks"

  /** The constructor: the command starts finished, with the fixed powers
      and tick counts taken from (and published to) the dashboard, tick
      counts truncated to integers. The gains are not applied yet. */
  function New(s: Dashboard.Store, leftGain: real, rightGain: real): (res: (TickTimed, Dashboard.Store))
    ensures res.0.mode == Done
    ensures res.0.leftGain == leftGain && res.0.rightGain == rightGain
    ensures res.0.leftPower == Dashboard.GetNumber(s, FixedLeftLabel, DefaultPower)
    ensures res.0.rightPower == Dashboard.GetNumber(s, FixedRightLabel, DefaultPower)
    ensures res.0.rampTicks == Trunc(Dashboard.GetNumber(s, RampTicksLabel, DefaultRampTicks as real))
    ensures res.0.cruiseTicks == Trunc(Dashboard.GetNumber(s, CruiseTicksLabel, DefaultCruiseTicks as real))
    ensures FixedLeftLabel !in s.numbers && FixedRightLabel !in s.numbers
            && RampTicksLabel !in s.numbers && CruiseTicksLabel !in s.numbers
            ==> res.0.rampTicks == DefaultRampTicks && res.0.cruiseTicks == DefaultCruiseTicks
                && res.0.leftPower == DefaultPower && res.0.rightPower == DefaultPower
    ensures RampTicksLabel in res.1.numbers && CruiseTicksLabel in res.1.numbers
    ensures FixedLeftLabel in res.1.numbers && FixedRightLabel in res.1.numbers
  {
    var (l, s1) := Dashboard.InitializeNumber(s, FixedLeftLabel, DefaultPower);
    var (r, s2) := Dashboard.InitializeNumber(s1, FixedRightLabel, DefaultPower);
    var (rt, s3) := Dashboard.InitializeNumber(s2, RampTicksLabel, DefaultRampTicks as real);
    var (ct, s4) := Dashboard.InitializeNumber(s3, CruiseTicksLabel, DefaultCruiseTicks as real);
    TruncOfInt(DefaultRampTicks);
    TruncOfInt(DefaultCruiseTicks);
    (TickTimed(Done, 0, Trunc(rt), Trunc(ct), leftGain, rightGain, l, r), s4)
  }

  /** `initialize`: reread the tick counts (current values as defaults) and
      the fixed powers (0.4 as default) and apply the gains; start ramping. */
  function Initialize(t: TickTimed, s: Dashboard.Store): (t': TickTimed)
    ensures t'.mode == RampUp && t'.ticks == 0
    ensures t'.rampTicks == Trunc(Dashboard.GetNumber(s, RampTicksLabel, t.rampTicks as real))
    ensures t'.cruiseTicks == Trunc(Dashboard.GetNumber(s, CruiseTicksLabel, t.cruiseTicks as real))
    ensures t'.leftPower == t.leftGain * Dashboard.GetNumber(s, FixedLeftLabel, DefaultPower)
    ensures t'.rightPower == t.rightGain * Dashboard.GetNumber(s, FixedRightLabel, DefaultPower)
    ensures RampTicksLabel !in s.numbers ==> t'.rampTicks == t.rampTicks
    ensures CruiseTicksLabel !in s.numbers ==> t'.cruiseTicks == t.cruiseTicks
    ensures t'.leftGain == t.leftGain && t'.rightGain == t.rightGain
  {
    TruncOfInt(t.rampTicks);
    TruncOfInt(t.cruiseTicks);
    t.(rampTicks := Trunc(Dashboard.GetNumber(s, RampTicksLabel, t.rampTicks as real)),
       cruiseTicks := Trunc(Dashboard.GetNumber(s, CruiseTicksLabel, t.cruiseTicks as real)),
       leftPower := t.leftGain * Dashboard.GetNumber(s, FixedLeftLabel, DefaultPower),
       rightPower := t.rightGain * Dashboard.GetNumber(s, FixedRightLabel, DefaultPower),
       mode := RampUp,
       ticks := 0)
  }

  /** `isFinished`. */
  function IsFinished(t: TickTimed): (r: bool)
    ensures r <==> t.mode == Done
  {
    t.mode == Done
  }

  /** `checkModeChange(newMode, atTickCnt)`: once the tick count reaches
      the threshold, switch mode and restart the count. */
  function CheckModeChange(t: TickTimed, newMode: Mode, atTickCnt: int): (t': TickTimed)
    ensures t.ticks >= atTickCnt ==> t'.mode == newMode && t'.ticks == 0
    ensures t.ticks < atTickCnt ==> t' == t
    ensures t'.rampTicks == t.rampTicks && t'.cruiseTicks == t.cruiseTicks
    ensures t'.leftPower == t.leftPower && t'.rightPower == t.rightPower
  {
    if t.ticks >= atTickCnt then t.(mode := newMode, ticks := 0) else t
  }

  /** The mode that follows each mode. */
  function NextMode(m: Mode): Mode
  {
    match m
    case RampUp => Cruise
    case Cruise => RampDown
    case RampDown => Done
    case Done => Done
  }

  /** `execute`: count the tick, command the drive for the current mode,
      then check for the end of the mode. A ramp with zero ticks divides by
      zero, which Python reports as an error. */
  function Execute(t: TickTimed): (res: Result<(TickTimed, DriveCmd), TickError>)
    ensures res.Err? <==> t.rampTicks == 0 && (t.mode == RampUp || t.mode == RampDown)
    ensures res.Ok? ==> var (t', cmd) := res.value;
              ((t'.mode == t.mode && t'.ticks == t.ticks + 1)
               || (t'.mode == NextMode(t.mode) && t'.ticks == 0 && t.mode != Done))
              && t'.rampTicks == t.rampTicks && t'.cruiseTicks == t.cruiseTicks
              && t'.leftPower == t.leftPower && t'.rightPower == t.rightPower
              && (cmd.Stop? <==> t.mode == Done)
    ensures res.Ok? && t.mode == Cruise ==> res.value.1 == SetPower(t.leftPower, t.rightPower)
  {
    var t1 := t.(ticks := t.ticks + 1);
    match t1.mode
    case RampUp =>
      if t1.rampTicks == 0 then Err(ZeroDivisionError)
      else
        var rampPower := t1.ticks as real / t1.rampTicks as real;
        Ok((CheckModeChange(t1, Cruise, t1.rampTicks),
            SetPower(t1.leftPower * rampPower, t1.rightPower * rampPower)))
    case Cruise =>
      Ok((CheckModeChange(t1, RampDown, t1.cruiseTicks), SetPower(t1.leftPower, t1.rightPower)))
    case RampDown =>
      if t1.rampTicks == 0 then Err(ZeroDivisionError)
      else
        var rampPower := (t1.rampTicks - t1.ticks) as real / t1.rampTicks as real;
        Ok((CheckModeChange(t1, Done, t1.rampTicks),
            SetPower(t1.leftPower * rampPower, t1.rightPower * rampPower)))
    case Done =>
      Ok((t1, Stop))
  }

  /** `end`, also reached from `interrupted`: the drive is stopped. */
  function End(d: DriveSubsystem.Drive): (d': DriveSubsystem.Drive)
    ensures d'.left.power == 0.0 && d'.right.power == 0.0
    ensures d'.sensors == d.sensors
  {
    DriveSubsystem.Stop(d)
  }

  /** `n` consecutive executions, with the commands they issue in order. */
  function Run(t: TickTimed, n: nat): Result<(TickTimed, seq<DriveCmd>), TickError>
    decreases n
  {
    if n == 0 then Ok((t, []))
    else
      match Run(t, n - 1)
      case Err(e) => Err(e)
      case Ok((t1, cmds)) =>
        match Execute(t1)
        case Err(e) => Err(e)
        case Ok((t2, c)) => Ok((t2, cmds + [c]))
  }

  /** Length of the cruise phase: at least one tick, since the count is
      checked only after the tick is taken. */
  function CruiseLen(t: TickTimed): (n: int)
    ensures n >= 1 && n >= t.cruiseTicks
  {
    if t.cruiseTicks >= 1 then t.cruiseTicks else 1
  }

  /** Reference profile: the command of the `k`-th execution (from 1) after
      `initialize`, for a ramp of `R >= 1` ticks. */
  function Planned(t0: TickTimed, k: int): DriveCmd
    requires t0.rampTicks >= 1
  {
    var r := t0.rampTicks;
    var c := CruiseLen(t0);
    if k <= r then
      var f := k as real / r as real;
      SetPower(t0.leftPower * f, t0.rightPower * f)
    else if k <= r + c then
      SetPower(t0.leftPower, t0.rightPower)
    else if k <= 2 * r + c then
      var f := (r - (k - r - c)) as real / r as real;
      SetPower(t0.leftPower * f, t0.rightPower * f)
    else
      Stop
  }

  /** Reference state after `k` executions from a freshly initialized command. */
  function StateAfter(t0: TickTimed, k: nat): TickTimed
    requires t0.rampTicks >= 1
  {
    var r := t0.rampTicks;
    var c := CruiseLen(t0);
    if k < r then t0.(mode := RampUp, ticks := k)
    else if k < r + c then t0.(mode := Cruise, ticks := k - r)
    else if k < 2 * r + c then t0.(mode := RampDown, ticks := k - r - c)
    else t0.(mode := Done, ticks := k - 2 * r - c)
  }

  /** One execution moves the reference state one tick on and issues the
      reference command. */
  lemma ExecuteFollowsPlan(t0: TickTimed, k: nat)
    requires t0.mode == RampUp && t0.ticks == 0 && t0.rampTicks >= 1
    ensures Execute(StateAfter(t0, k)) == Ok((StateAfter(t0, k + 1), Planned(t0, k + 1)))
  {
    var r := t0.rampTicks;
    var c := CruiseLen(t0);
    var st := StateAfter(t0, k);
    var t1 := st.(ticks := st.ticks + 1);
    var next := StateAfter(t0, k + 1);
    if k < r {
      assert t1 == t0.(mode := RampUp, ticks := k + 1);
      var f := (k + 1) as real / r as real;
      assert Planned(t0, k + 1) == SetPower(t0.leftPower * f, t0.rightPower * f);
      assert next == CheckModeChange(t1, Cruise, r);
    } else if k < r + c {
      assert t1 == t0.(mode := Cruise, ticks := k + 1 - r);
      assert Planned(t0, k + 1) == SetPower(t0.leftPower, t0.rightPower);
      assert next == CheckModeChange(t1, RampDown, t0.cruiseTicks);
    } else if k < 2 * r + c {
      assert t1 == t0.(mode := RampDown, ticks := k + 1 - r - c);
      var f := (r - (k + 1 - r - c)) as real / r as real;
      assert Planned(t0, k + 1) == SetPower(t0.leftPower * f, t0.rightPower * f);
      assert next == CheckModeChange(t1, Done, r);
    } else {
      assert t1 == t0.(mode := Done, ticks := k + 1 - 2 * r - c);
      assert next == t1;
    }
    var v := Execute(st).value;
    assert v.0 == next && v.1 == Planned(t0, k + 1);
    assert v == (v.0, v.1);
  }

  /** From `initialize` (with a ramp of at least one tick), `n` executions
      issue exactly the reference profile and leave the reference state. */
  lemma {:induction false} RunFollowsPlan(t0: TickTimed, n: nat)
    requires t0.mode == RampUp && t0.ticks == 0 && t0.rampTicks >= 1
    ensures Run(t0, n).Ok?
    ensures Run(t0, n).value.0 == StateAfter(t0, n)
    ensures |Run(t0, n).value.1| == n
    ensures forall i :: 0 <= i < n ==> Run(t0, n).value.1[i] == Planned(t0, i + 1)
    decreases n
  {
    if n > 0 {
      RunFollowsPlan(t0, n - 1);
      ExecuteFollowsPlan(t0, n - 1);
      assert StateAfter(t0, 0) == t0;
    } else {
      assert StateAfter(t0, 0) == t0;
    }
  }

  /** Total executions of the profile: both ramps and the cruise. */
  function ProfileLen(t0: TickTimed): (n: int)
    requires t0.rampTicks >= 1
    ensures n >= 3
  {
    2 * t0.rampTicks + CruiseLen(t0)
  }

  /** The command finishes after exactly `2R + cruise` executions, and the
      last of them commands zero power. */
  lemma FinishesAfterProfile(t: TickTimed, s: Dashboard.Store, n: nat)
    requires Initialize(t, s).rampTicks >= 1
    ensures var t0 := Initialize(t, s);
            Run(t0, n).Ok? && |Run(t0, n).value.1| == n
            && (IsFinished(Run(t0, n).value.0) <==> n >= ProfileLen(t0))
            && (n >= ProfileLen(t0) ==>
                  Run(t0, n).value.1[ProfileLen(t0) - 1] == SetPower(t0.leftPower * 0.0, t0.rightPower * 0.0))
  {
    var t0 := Initialize(t, s);
    RunFollowsPlan(t0, n);
    var r := t0.rampTicks;
    var total := ProfileLen(t0);
    if n >= total {
      assert Run(t0, n).value.1[total - 1] == Planned(t0, total);
      assert (r - (total - r - CruiseLen(t0))) as real / r as real == 0.0;
    }
  }

  /** Shape of the reference profile: ramp-up fractions in (0, 1], full
      fixed power while cruising, ramp-down fractions in [0, 1) that fall by
      one step per tick, and only stop commands after. */
  lemma PlannedShape(t0: TickTimed, k: int)
    requires t0.rampTicks >= 1
    ensures var r := t0.rampTicks;
            var total := ProfileLen(t0);
            (1 <= k <= r ==>
               Planned(t0, k).left == t0.leftPower * (k as real / r as real)
               && 0.0 < k as real / r as real <= 1.0)
            && (r < k <= total - r ==> Planned(t0, k) == SetPower(t0.leftPower, t0.rightPower))
            && (total - r < k <= total ==>
                  Planned(t0, k).left == t0.leftPower * ((total - k) as real / r as real)
                  && 0.0 <= (total - k) as real / r as real < 1.0)
            && (k > total ==> Planned(t0, k) == Stop)
  {
    var r := t0.rampTicks;
    var total := ProfileLen(t0);
    if 1 <= k <= r {
      FractionBounds(k, r);
    }
    if total - r < k <= total {
      FractionBounds(total - k, r);
    }
  }

  lemma FractionBounds(a: int, b: int)
    requires b >= 1 && 0 <= a <= b
    ensures 0.0 <= a as real / b as real <= 1.0
    ensures a > 0 ==> a as real / b as real > 0.0
    ensures a < b ==> a as real / b as real < 1.0
  {
  }

  /** Python stops with an error on the first execution when the dashboard
      sets the ramp to 0 ticks. */
  lemma ZeroRampFailsAtOnce(t: TickTimed, s: Dashboard.Store)
    requires Initialize(t, s).rampTicks == 0
    ensures Run(Initialize(t, s), 1).Err?
  {
  }

  /** A negative ramp length passes straight to cruise after one execution
      whose power has the opposite sign of the fixed power. */
  lemma NegativeRampReversesFirstTick(t: TickTimed, s: Dashboard.Store)
    requires Initialize(t, s).rampTicks < 0 && Initialize(t, s).leftPower > 0.0
    ensures var t0 := Initialize(t, s);
            Execute(t0).Ok? && Execute(t0).value.0.mode == Cruise
            && Execute(t0).value.1.left < 0.0
  {
    var t0 := Initialize(t, s);
    var f := 1.0 / t0.rampTicks as real;
    assert f < 0.0;
    assert t0.leftPower * f < 0.0;
  }

  /** A command that was never initialized is already finished and only stops. */
  lemma NewIsFinished(s: Dashboard.Store, leftGain: real, rightGain: real)
    ensures var t := New(s, leftGain, rightGain).0;
            IsFinished(t) && Execute(t).Ok? && Execute(t).value.1 == Stop
            && IsFinished(Execute(t).value.0)
  {
  }
}
